=== FILE: README.md ===
# Job market dashboard: a Dafny model of the scrape-and-clean core

The dashboard scrapes Tech in Asia job listings with a headless browser. It
turns every job card into a record and keeps the first record of every job
id. It upserts the result into a master CSV and then cleans that table. The
cleaning parses salary ranges out of the compensation text, normalises
company names, drops duplicate ids and parses dates. It writes a sanitised
ten-column CSV and a one-row data-quality report.

This project models that data path as pure functions and proves what it
guarantees:

- `common.dfy`: `Option` and `Result`.
- `text.dfy` (module `Text`): the parts of Python's `str` the code uses. These
  are `strip`, `lower`, `int` of digit strings, `replace(",", "")`, and
  `join`/`split` on one character. Whitespace, digits and letters are ASCII.
- `dedup.dfy` (module `Dedup`): first-seen-wins filtering by a key. This is
  the one idea behind the scraper's `seen_ids` set, `drop_duplicates(subset="id")`
  and the upsert.
- `frame.dfy` (module `Frame`): the slice of a pandas DataFrame the code
  relies on. A table is a column list plus rows mapping column names to
  cells. The module covers column assignment, `drop_duplicates`, `concat`
  and column selection with its `KeyError`.
- `salary.dfy` (modules `Salary`, `SalaryExamples`): `extract_salaries`. The
  regular expression `SGD\s*([\d,]+)\s*[–-]\s*([\d,]+)` is a hand-written
  scanner. The scanner is proved to find exactly the leftmost match of the
  pattern, with greedy groups, as `re.search` does. Conversion to
  integers includes the `ValueError` that `int("")` raises.
- `cleanup.dfy` (module `Cleanup`): `cleanup_and_analyse` up to the
  sanitised projection and its quality report. It includes the salary
  `ValueError` and the `KeyError` for an absent column; the `TypeError` of a
  `published_date_parsed` column that the input brings in already, holding
  text, is not modelled (see "Left out").
- `reporting.dfy` (module `Reporting`): `log_quality_report`. This covers the
  missing-value counts, the count/min/max of `salary_min`, the date range,
  and the flattening into `section_key` columns.
- `scraper.dfy` (module `Scraper`): one card to one record (or none), the job
  id from the link, accumulation across scroll rounds, the stop rule of the
  scroll loop, the frame built from the records, and the upsert.

The model follows the code where the project's own documentation says
otherwise:

- `extract_salaries` is partial: a group made only of commas makes `int("")`
  raise. It never checks that the minimum is at most the maximum; a reversed
  range is returned as written.
- The upsert keeps the stored row of a job that is scraped again. The
  concatenation puts the existing rows first and `drop_duplicates` keeps the
  first. See "Findings".
- `cleanup_and_analyse` returns the whole cleaned frame, not the sanitised
  projection its docstring promises.
- The repository's cleanup test feeds a frame with the columns `job_id`,
  `salary_min` and `company_name` and expects two rows back. With no `id`
  column the projection raises `KeyError`, which `Cleanup.TestFrameRaisesKeyError`
  states.
- The scroll loop's first comparison sets the number of distinct ids seen
  (`previous_count = len(seen_ids)`) against the number of cards on the page.
  `Scraper.States` keeps that mix.

Two inputs are parameters rather than code. `toDatetime` stands for
`pd.to_datetime(..., errors="coerce")` on one string, with `None` for `NaT`.
`render` stands for `str()` of a timestamp. Timestamps are integers (nanoseconds),
as pandas stores them.

## Model

| member | source | states |
|---|---|---|
| Text.Strip | scraper/selenium_scraper.py:82-95 | the result has no whitespace at either end and is no longer than the input |
| Text.StripCuts | scraper/selenium_scraper.py:82-95 | what `strip` removes is whitespace, and only from the two ends |
| Text.StripUnchanged | scraper/selenium_scraper.py:82-95 | a string with non-whitespace ends is its own stripped form |
| Text.StripIdempotent | data_processing.py:75 | stripping twice is stripping once |
| Text.Lower | data_processing.py:75 | same length; each upper-case letter becomes its lower-case letter (code point plus 32); whitespace where it was; other characters unchanged |
| Text.LowerOfLower | data_processing.py:75 | a string with no upper-case letter is its own lower-case form |
| Text.DigitsOfNatText | data_processing.py:31-32 | `int(str(n)) == n` for every natural number |
| Text.RemoveChar | data_processing.py:31-32 | `replace(c, "")` leaves no `c`, keeps every other character, and is empty exactly when the input is all `c` |
| Text.RemoveCharSingle | data_processing.py:31-32 | one character is dropped when it is `c` and kept otherwise |
| Text.RemoveCharAppend | data_processing.py:31-32 | removal works piecewise, so the result is the input's other characters in their order |
| Text.SplitJoin | scraper/selenium_scraper.py:124-127 | splitting a comma join gives back the parts when no part holds a comma |
| Text.JoinSplit | scraper/selenium_scraper.py:124-127 | joining the pieces of a split gives back the string |
| Dedup.Unseen | scraper/selenium_scraper.py:167-171 | the kept items have distinct keys, come from the input, and cover exactly the input's keys not already seen |
| Dedup.UnseenAppend | scraper/selenium_scraper.py:199-205 | filtering a later batch against everything seen so far extends the filtered earlier batches |
| Dedup.UnseenOfDistinct | scraper/selenium_scraper.py:263-265 | items with distinct keys, none seen before, are all kept in order |
| Dedup.UnseenKeepsFirst | scraper/selenium_scraper.py:167-171 | the first item with an unseen key is kept |
| Dedup.DistinctKeysCount | scraper/selenium_scraper.py:267-270 | a sequence with distinct keys has as many keys as items |
| Dedup.KeepFirstPrefix | scraper/selenium_scraper.py:199-205 | what is kept from a prefix stays kept when more items arrive |
| Dedup.ScanUnseen | scraper/selenium_scraper.py:167-171 | the `seen_ids` loop builds exactly the first-seen filter, and the final seen set is the old one plus every key read |
| Frame.SetColumn | data_processing.py:61-62 | assigning a column sets its values, appends it only when new, and changes no other column |
| Frame.DropDuplicates | data_processing.py:65-66 | distinct ids, the same set of ids, rows drawn from the input, columns unchanged |
| Frame.Concat | scraper/selenium_scraper.py:263 | rows of the first frame then the second; columns of the first then the second's new ones |
| Frame.Select | data_processing.py:87-99 | exactly the wanted columns in order with every row's values kept, or a `KeyError` naming an absent wanted column exactly when one is absent |
| Salary.MatchAtSound | data_processing.py:29 | a scan result is a match of the pattern with greedy groups |
| Salary.MatchAtComplete | data_processing.py:29 | every match of the pattern at a position is found there, with the same first group and dash and a second group at least as long |
| Salary.GreedyMatchUnique | data_processing.py:29 | there is one greedy match per start position |
| Salary.SearchIsLeftmost | data_processing.py:29 | `re.search` finds nothing exactly when the pattern matches nowhere, and otherwise the leftmost greedy match |
| Salary.MatchOfParts | data_processing.py:29 | a string laid out as currency, spaces, number, dash, number is searched to exactly those groups |
| Salary.CommasRemoved | data_processing.py:31-32 | a group of digits and commas becomes a digit string once commas go |
| Salary.GroupsValue | data_processing.py:31-33 | the two groups give a range, or a `ValueError` exactly when one of them is only commas (for numbers of any length) |
| Salary.GroupsValueOfRendered | data_processing.py:31-33 | groups whose comma-free form is the decimal text of `n` and `m` give the range `n`..`m`, wherever the commas stand |
| Salary.ExtractSalaries | data_processing.py:22-34 | a non-string gives no salary; a string gives no salary exactly when the pattern matches nowhere |
| Salary.ExtractSalariesOfMatch | data_processing.py:29-33 | the result is the value of the two groups of the leftmost match |
| SalaryExamples.DigitsExample | data_processing.py:31-32 | `int("4000")` is 4000 and `int("8000")` is 8000 |
| SalaryExamples.GroupsExample | data_processing.py:31-33 | the groups "4,000" and "8,000" give 4000 and 8000, in either order |
| SalaryExamples.DocstringMatch | data_processing.py:24 | the docstring's example is matched with groups "4,000" and "8,000" |
| SalaryExamples.DocstringExample | data_processing.py:24-25 | the docstring's example gives the range 4000 to 8000 |
| SalaryExamples.ReversedMatch | data_processing.py:29 | "SGD 8,000 - 4,000" is matched with the larger number first |
| SalaryExamples.ReversedRangeKept | data_processing.py:31-33 | a reversed range is returned as (8000, 4000), with no ordering check |
| SalaryExamples.CommaOnlyGroupRaises | data_processing.py:31 | "SGD , - 5" raises `ValueError` |
| SalaryExamples.NoCurrencyNoSalary | data_processing.py:34 | text without "SGD" gives no salary |
| SalaryExamples.SingleNumberNoSalary | data_processing.py:29-34 | a single amount without a dash gives no salary |
| Cleanup.ToDatetime | data_processing.py:69-72 | a parsed cell is a timestamp or missing, and a missing input stays missing |
| Cleanup.NormaliseCompany | data_processing.py:75 | the normalised name has no whitespace at its ends and no upper-case letter |
| Cleanup.MissingCompanyIsNan | data_processing.py:75 | a missing company becomes the text "nan" |
| Cleanup.NormaliseCompanyIdempotent | data_processing.py:75 | normalising a normalised name changes nothing |
| Cleanup.ToNumeric | data_processing.py:78 | the result is an integer or missing; integers and missing values pass through |
| Cleanup.TrimBlanksAround | data_processing.py:78 | the number parser drops exactly the blanks around a text whose ends are not blanks |
| Cleanup.ToNumericOfText | data_processing.py:78 | the text of an integer, with or without a `+` and with blanks around it, converts back to that integer |
| Cleanup.SignedText | data_processing.py:78 | the signed decimal text of an integer is integer text whose digits read back as its magnitude, with `-` exactly for negatives |
| Cleanup.SalaryColumns | data_processing.py:55-58 | one `salary_min`/`salary_max` pair per row, in row order, from that row's `extract_salaries` result, or a `ValueError` exactly when some row's result is one |
| Cleanup.RowSalariesRaise | data_processing.py:55-58 | some row's `extract_salaries` result is a `ValueError` exactly when some row's `compensation` makes it raise |
| Cleanup.DeriveSalaries | data_processing.py:55-58 | with `compensation`, every row holds its parsed salaries and nothing else changes, or the call raises exactly when some row raises; without it the frame is untouched |
| Cleanup.CopyCompany | data_processing.py:61-62 | with `company`, `company_name` equals it in every row and nothing else changes |
| Cleanup.DropDuplicateIds | data_processing.py:65-66 | with `id`, keep-first dedup on it; without, the frame is untouched |
| Cleanup.ParseDates | data_processing.py:69-72 | with `published_date`, every row holds its parsed date and nothing else changes |
| Cleanup.NormaliseCompanies | data_processing.py:75 | every `company_name` is normalised and nothing else changes, or `KeyError("company_name")` exactly when the column is absent |
| Cleanup.NumericSalaryMin | data_processing.py:78 | `salary_min` goes through `to_numeric` and nothing else changes, or `KeyError("salary_min")` exactly when the column is absent |
| Cleanup.Project | data_processing.py:87-99 | the ten sanitised columns in order with the row values kept, or a `KeyError` naming an absent one exactly when one is absent |
| Cleanup.PrepareColumns | data_processing.py:61-72 | the columns steps 2 to 3b add and where they go |
| Cleanup.PrepareKeepsSalaries | data_processing.py:55-72 | the salary columns derived in step 1 survive steps 2 to 3b |
| Cleanup.PrepareCopiesCompany | data_processing.py:61-72 | after steps 2 to 3b `company_name` still equals `company` |
| Cleanup.FinishFacts | data_processing.py:75-78 | steps 4 and 5 succeed exactly when both columns exist; they normalise the company, convert the salary and change nothing else |
| Cleanup.CleanColumnsExtend | data_processing.py:55-72 | cleaning only adds columns, after the input's |
| Cleanup.DeriveThenPrepareColumns | data_processing.py:55-72 | the columns after steps 1 to 3b are the input's plus the derived ones |
| Cleanup.CleanSucceeds | data_processing.py:55-78 | the cleaning raises exactly on a salary `ValueError` or a missing `company_name`/`salary_min`, and otherwise leaves the predicted columns |
| Cleanup.FinishKeepsSalaries | data_processing.py:75-78 | steps 4 and 5 keep the derived salary pair |
| Cleanup.FinishNormalisesCompany | data_processing.py:75 | a `company_name` copied from `company` ends up as the normalised company |
| Cleanup.FinishKeepsDates | data_processing.py:75-78 | steps 4 and 5 keep the parsed dates |
| Cleanup.CleanRows | data_processing.py:55-78 | every cleaned row has a clean company name and, for each source column present, its derived salary, company and date |
| Cleanup.SameIdsKeys | data_processing.py:65-66 | tables with the same ids row by row have the same id set and distinctness |
| Cleanup.DeriveKeepsIds | data_processing.py:55-58 | step 1 keeps every row's id |
| Cleanup.CopyKeepsIds | data_processing.py:61-62 | step 2 keeps every row's id |
| Cleanup.ParseKeepsIds | data_processing.py:69-72 | step 3b keeps every row's id |
| Cleanup.FinishKeepsIds | data_processing.py:75-78 | steps 4 and 5 keep every row's id |
| Cleanup.PipelineDedup | data_processing.py:61-78 | after steps 2 to 5 the ids are distinct and the same set as before, and no row is added |
| Cleanup.CleanDedup | data_processing.py:55-78 | the cleaned frame has distinct ids, the input's id set, and no more rows than the input; all rows stay without an `id` column |
| Cleanup.CleanupVerdict | data_processing.py:55-103 | the call succeeds exactly when no salary raises and every sanitised column exists; otherwise `ValueError` or a `KeyError` naming a missing sanitised column |
| Cleanup.CleanupOutcome | data_processing.py:87-173 | the sanitised table is the projection of the returned unprojected frame, and the report is computed from the sanitised table |
| Cleanup.CleanedDatesAreDates | data_processing.py:69-72 | with a `published_date` column, the cleaned `published_date_parsed` holds only timestamps and NaT |
| Cleanup.ProjectKeepsDates | data_processing.py:87-99 | the projection keeps `published_date_parsed` cell for cell, so a date-only column stays date-only |
| Cleanup.ReportedDatesAreDates | data_processing.py:69-102 | with a `published_date` column, the frame the report reads has only timestamps and NaT in `published_date_parsed`, so its date range covers every non-missing cell |
| Cleanup.TestFrameRaisesKeyError | test_data_processing.py:6-14 | the repository's cleanup test frame makes the call raise `KeyError` |
| Reporting.CountMissing | utils/reporting.py:25 | the count is the number of missing positions |
| Reporting.MissingCount | utils/reporting.py:25-26 | `isna().sum()` of a column is the number of rows whose cell is missing |
| Reporting.MinOf | utils/reporting.py:39 | the minimum is an element and at most every element |
| Reporting.MaxOf | utils/reporting.py:40 | the maximum is an element and at least every element |
| Reporting.Numbers | utils/reporting.py:31-33 | the numbers of a column are exactly its integer cells, and all its non-missing cells when it is numeric |
| Reporting.Stamps | utils/reporting.py:38-41 | the timestamps of a column are exactly its date cells |
| Reporting.DateSpan | utils/reporting.py:38-41 | none exactly without dates; otherwise two dates of the column bounding every date in it |
| Reporting.SalaryStats | utils/reporting.py:31-33 | the count of non-missing cells, then on a numeric column min and max bounding every value, or NaN when nothing is counted |
| Reporting.FlattenAppend | utils/reporting.py:46 | flattening distributes over concatenation of sections |
| Reporting.ReportLayout | utils/reporting.py:22-46 | the report is the missing counts, then the salary part when `salary_min` exists, then the date part when `published_date_parsed` exists |
| Reporting.ReportMissingValues | utils/reporting.py:25-26 | the report opens with `missing_values_<col>` and its count for each column in order |
| Reporting.ReportSalaryCount | utils/reporting.py:31-33 | `salary_min_stats_count` is reported exactly when `salary_min` exists, with the non-missing count |
| Reporting.ReportDateRange | utils/reporting.py:38-46 | the date keys are reported exactly when `published_date_parsed` exists, as the last two entries, holding the rendered oldest and newest timestamps, or "NaT" for both when the column has none |
| Reporting.SampleReportKeys | utils/test_reporting.py:6-20 | a table with `id`, `salary_min` and `published_date_parsed` reports the three keys the repository's report test looks for |
| Scraper.RStripSlash | scraper/selenium_scraper.py:83 | `rstrip("/")` removes only trailing slashes, all of them |
| Scraper.LastSegment | scraper/selenium_scraper.py:83-85 | `rsplit("/", 1)[-1]` is a slash-free suffix preceded by a slash unless it is the whole string |
| Scraper.JobId | scraper/selenium_scraper.py:82-87 | the id has no slash and is empty exactly when the stripped link is all slashes |
| Scraper.JobIdOfLink | scraper/selenium_scraper.py:82-87 | the id of a link is its last path segment, with trailing slashes ignored |
| Scraper.RStripSlashOf | scraper/selenium_scraper.py:83 | trailing slashes after a path ending in a non-slash are what goes |
| Scraper.LastSegmentOf | scraper/selenium_scraper.py:83-85 | the text after the last slash is the segment |
| Scraper.ExampleLinkId | scraper/tests/test_helpers.py:28-41 | the link of the repository's card test has id "123" |
| Scraper.SlugLinkId | scraper/selenium_scraper.py:83-85 | a job link with a trailing slash has its slug as id |
| Scraper.DuplicateCardLinkId | scraper/tests/test_helpers.py:82-94 | the link both duplicate cards carry has id "abc-123" |
| Scraper.OptionalTextStripped | scraper/selenium_scraper.py:107-119 | optional fields come out stripped |
| Scraper.ImageUrl | scraper/selenium_scraper.py:98-105 | the image URL is the stripped image source of the avatar, and empty without an avatar |
| Scraper.Metadata | scraper/selenium_scraper.py:122-129 | no metadata list gives the empty string |
| Scraper.MetadataSplits | scraper/selenium_scraper.py:124-127 | splitting the metadata at commas gives back the stripped items when none holds a comma |
| Scraper.ExtractJob | scraper/selenium_scraper.py:74-137 | a card gives a record exactly when its title link (with `href`), company and location are present |
| Scraper.ExtractJobFields | scraper/selenium_scraper.py:82-129 | every field of the record is read from its own element: link and id from the title's `href`, title, company and location stripped, image from the avatar, compensation and date as optional text, metadata from the list |
| Scraper.IdFromLink | scraper/selenium_scraper.py:82-95 | the record's link is the stripped `href` and its id is the last path segment of that link |
| Scraper.RequiredFieldsStripped | scraper/selenium_scraper.py:82-95 | title, company, location and link are stripped |
| Scraper.OptionalFieldsStripped | scraper/selenium_scraper.py:98-129 | image URL, compensation and date are stripped |
| Scraper.MockCardExample | scraper/tests/test_helpers.py:28-41 | the repository's mock card gives title "Software Engineer" and its link |
| Scraper.EmptyCardExample | scraper/tests/test_helpers.py:45-54 | a card with no elements gives no record |
| Scraper.SomesMembers | scraper/selenium_scraper.py:168-169 | the kept records are exactly the non-empty extraction results |
| Scraper.ExtractedRecords | scraper/selenium_scraper.py:167-171 | the records of a card sequence are exactly what its cards extract to |
| Scraper.ExtractedAppend | scraper/selenium_scraper.py:199-205 | the records of two batches are those of the first then those of the second |
| Scraper.CollectCards | scraper/selenium_scraper.py:199-205 | one pass appends exactly the unseen records, grows the seen set by every id read, and counts the records it added |
| Scraper.RepeatedRecordOnce | scraper/selenium_scraper.py:167-171 | the same record read repeatedly is kept once |
| Scraper.RepeatedCardOnce | scraper/tests/test_helpers.py:82-94 | the same card on the page twice gives one job |
| Scraper.NoteRound | scraper/selenium_scraper.py:207-221 | the growth check keeps the loop's counters equal to "rounds without growth" and stops first at two in a row |
| Scraper.StillPageStopsAtTwo | scraper/selenium_scraper.py:187-221 | a page that never changes stops after the second round, not before |
| Scraper.JobRow | scraper/selenium_scraper.py:232 | a record becomes a row with text in all nine columns |
| Scraper.RowJob | scraper/selenium_scraper.py:232 | a row reads back as a record exactly when all nine columns hold text |
| Scraper.RowJobOfJobRow | scraper/selenium_scraper.py:232 | reading back the row of a record gives that record |
| Scraper.JobsTable | scraper/selenium_scraper.py:224-232 | one row per record read back as that record; no columns when there are no records |
| Scraper.JobsTableIds | scraper/selenium_scraper.py:232 | the frame's id column carries the records' ids, distinct when they are |
| Scraper.CardsRead | scraper/selenium_scraper.py:161-194 | the cards read start with the initial cards |
| Scraper.CollectStep | scraper/selenium_scraper.py:199-205 | one more round extends the kept records by that round's unseen ones |
| Scraper.CollectInvariant | scraper/selenium_scraper.py:199-205 | appending a round's unseen records keeps "the first record of every id read so far" true one round further |
| Scraper.ScrollRound | scraper/selenium_scraper.py:193-221 | one iteration of the scroll loop collects the round's unseen records and updates the growth counters, keeping the loop's invariants |
| Scraper.ScrollAndCollect | scraper/selenium_scraper.py:182-221 | the loop keeps the first record of every id read so far and stops at the first round that ends two without growth |
| Scraper.ScrapeAllJobs | scraper/selenium_scraper.py:143-233 | the frame holds exactly the first record of every id on the cards read, with distinct ids, and scrolling stopped by the rule |
| Scraper.Upsert | scraper/selenium_scraper.py:260-273 | the merged frame has distinct ids covering both frames' ids; with no master table, or no `id` anywhere, it is the scraped frame |
| Scraper.UpsertExistingFirst | scraper/selenium_scraper.py:263-265 | the merge is the stored rows, then scraped rows whose id was not stored |
| Scraper.UpsertKeepsExisting | scraper/selenium_scraper.py:263-266 | a master table with distinct ids is kept whole as a prefix |
| Scraper.UpsertAddsOnlyNewIds | scraper/selenium_scraper.py:267-271 | the logged "new or updated rows" count is the number of ids not stored before |
| Scraper.RescrapedJobKeepsStoredRow | scraper/selenium_scraper.py:263-265 | a job scraped again keeps its stored row |
| Scraper.UpsertLatest | scraper/selenium_scraper.py:260-273 | the upsert as its log describes it: distinct ids covering both frames' ids |
| Scraper.UpsertLatestScrapedFirst | scraper/selenium_scraper.py:263-265 | the corrected merge is the scraped rows, then stored rows whose id was not scraped again |
| Scraper.RescrapedJobReplacesStoredRow | scraper/selenium_scraper.py:263-270 | with the corrected merge a job scraped again replaces its stored row |

## Left out

- The browser: Selenium, the driver set-up, waits, sleeps and JavaScript. A card is what the element look-ups return; a scroll round is the reported height and card list.
- The scroll loop is a finite sequence of rounds; a page that keeps growing forever is not modelled, since the loop then never ends.
- Exceptions the browser raises outside the card try-block, and the re-raise in `scrape_all_jobs`.
- File I/O: reading and writing CSV files, `get_csv_path`, directory creation, and `read_csv`'s type inference on the master table.
- Logging, including the "fewer than 100 jobs" warning and `sys.exit` in `main`.
- The charts of `cleanup_and_analyse` and everything after the quality report except the `return`.
- Reporting.SalaryStats: states count, min and max of `describe()`; mean, std and quartiles are floating point and left out, and a non-numeric column's categorical `describe()` (unique, top, freq) is reduced to its count.
- Cleanup.ToNumeric: integers only; a decimal or exponent text, which `to_numeric` turns into a float, becomes missing. A digit string longer than 4300 digits is given its integer, where `int()` in the parser's integer branch raises and the coercion gives NaN.
- Salary.GroupsValue: the model reads digit groups of any length; since Python 3.11 (and the matching security releases) it raises `ValueError` on more than 4300 digits, so a group that long is read as its number instead of raising.
- Cleanup.SalaryColumns: the salary columns hold exact integers; pandas stores them as float64 once any row has no range (and `to_numeric` does so for values beyond 64 bits), so values above 2^53 are rounded and integers are written and reported as `4000.0`.
- Cleanup.NormaliseCompany: a missing cell renders as `"nan"`; a `None` or `NaT` company, which `astype(str)` renders as `"None"` or `"NaT"`, is not distinguished, since the company column holds only text or `NaN`.
- Cleanup.ToDatetime: `pd.to_datetime` is the `toDatetime` parameter, and `str()` of a timestamp is the `render` parameter.
- Text.Strip: ASCII whitespace only; Unicode spaces that Python's `strip` also removes are not modelled, and likewise Unicode digits for `\d` and Unicode letters for `lower`.
- Cleanup.CleanupVerdict: the `KeyError` names one missing column, where pandas lists every missing column in its message. An input without `published_date` keeps its own `published_date_parsed`; when that column holds text, the source's `min()`/`max()` in the report (with a missing cell) and the daily resample of the charts raise `TypeError`, which the model does not, so "succeeds exactly when" holds only for inputs whose `published_date_parsed` is absent, derived from `published_date`, or holds only timestamps and missing values.
- Reporting.DateSpan: reduces the column to its timestamps; text or integer cells in a passed-through `published_date_parsed`, which pandas' `min()`/`max()` compare themselves (or reject with `TypeError`), are not modelled. Cleanup.ReportedDatesAreDates shows the column holds only timestamps and missing values whenever the input has `published_date`.
- Reporting.ReportDateRange: the two values are stated over the timestamps of the column, for the same reason as Reporting.DateSpan.
- Cleanup.DeriveSalaries: the apply on an empty frame with a `compensation` column, where pandas cannot expand zero rows into two columns, is modelled like any other frame, with two empty columns added; what pandas does with it is not modelled.
- Scraper.JobRow: states that the nine columns hold text, not that the row has no other keys.
- Scraper.Upsert: the exception handler is modelled only for the `KeyError` of a dedup without an `id` column; other failures of the merge are not.
- `app.py`, `_additional/fetch_jobs.py`, the Scrapy spider and items, `utils/enums.py` and `utils/functions.py` are outside this model.

## Findings

| source | as written | input that shows it | evidently intended | confidence | as-written member | corrected member |
|---|---|---|---|---|---|---|
| scraper/selenium_scraper.py:263-270 | the stored rows go first and `drop_duplicates` keeps the first, so a re-scraped job never replaces its stored row, though the log reports "new or updated rows" | a master table with one row and a scraped frame with one row of the same id and a changed title | the re-scraped row replaces the stored one | medium, not executed | Scraper.RescrapedJobKeepsStoredRow | Scraper.RescrapedJobReplacesStoredRow |

=== FILE: cleanup.dfy ===
/** `cleanup_and_analyse` (data_processing.py) up to the sanitised output and
    its quality report: salary columns, `company_name`, keep-first dedup on
    `id`, date parsing, company normalisation, numeric `salary_min`, and the
    projection to the ten sanitised columns. Charts are not part of it. */
module Cleanup {
  import opened Common
  import opened Text
  import opened Frame
  import opened Salary
  import Reporting
  import Dedup

  /** The exceptions `cleanup_and_analyse` can raise. */
  datatype Error =
    | ParseError              // int("") inside extract_salaries (a ValueError)
    | KeyError(column: string) // a column the code reads is absent

  /** The columns of the sanitised CSV, in their fixed order. */
  const SanitisedColumns: seq<string> := [
    "id", "title", "company_name", "location", "link", "image_url",
    "salary_min", "salary_max", "published_date_parsed", "metadata"
  ]

  // ---------------------------------------------------------------------------
  // Cell conversions
  // ---------------------------------------------------------------------------

  /** The `salary_min` cell for a parse result (`None` becomes NaN). */
  function MinCell(s: Salary): Cell {
    if s.Range? then Int(s.min) else Missing
  }

  /** The `salary_max` cell for a parse result. */
  function MaxCell(s: Salary): Cell {
    if s.Range? then Int(s.max) else Missing
  }

  /** `pd.to_datetime(x, errors="coerce")` on one cell: `toDatetime` is the
      library's string parser (None where it fails); an integer is taken as
      nanoseconds since the epoch; anything unparseable becomes `NaT`. */
  function ToDatetime(c: Cell, toDatetime: string -> Option<int>): (r: Cell)
    ensures r.Missing? || r.Date?
    ensures c.Missing? ==> r.Missing?
  {
    match c
    case Missing => Missing
    case Str(s) => (match toDatetime(s) case Some(ns) => Date(ns) case None => Missing)
    case Int(n) => Date(n)
    case Date(ns) => Date(ns)
  }

  /** `str(x)` of a cell, as `astype(str)` renders it: a missing value is
      `"nan"`, and `render` formats a timestamp. `astype(str)` renders `None`
      as `"None"` and `NaT` as `"NaT"`; neither reaches the company column,
      which holds text or `NaN`, so every missing cell renders as `NaN` does. */
  function CellText(c: Cell, render: int -> string): string {
    match c
    case Missing => "nan"
    case Str(s) => s
    case Int(n) => IntText(n)
    case Date(ns) => render(ns)
  }

  /** `str(x).strip().lower()`. */
  function NormaliseCompany(c: Cell, render: int -> string): (r: string)
    ensures r == [] || (!IsSpace(r[0]) && !IsSpace(r[|r| - 1]))
    ensures forall k :: 0 <= k < |r| ==> !IsUpper(r[k])
  {
    Lower(Strip(CellText(c, render)))
  }

  /** A missing company becomes the literal `"nan"`. */
  lemma MissingCompanyIsNan(render: int -> string)
    ensures NormaliseCompany(Missing, render) == "nan"
  {
    assert StripStart("nan") == "nan";
    assert StripEnd("nan") == "nan";
  }

  /** Normalising a normalised name changes nothing. */
  lemma NormaliseCompanyIdempotent(c: Cell, render: int -> string)
    ensures NormaliseCompany(Str(NormaliseCompany(c, render)), render) == NormaliseCompany(c, render)
  {
    var r := NormaliseCompany(c, render);
    assert StripStart(r) == r;
    assert StripEnd(r) == r;
    LowerOfLower(r);
  }

  /** The whitespace pandas' number parser skips before and after a number:
      space, tab, line feed, vertical tab, form feed and carriage return. */
  predicate IsBlank(c: char) {
    c == ' ' || ('\U{9}' <= c <= '\U{D}')
  }

  predicate AllBlank(s: string) {
    forall k :: 0 <= k < |s| ==> IsBlank(s[k])
  }

  /** `s` without its leading and trailing blanks. */
  function TrimBlanks(s: string): (r: string)
    ensures |r| <= |s|
    ensures r == [] || (!IsBlank(r[0]) && !IsBlank(r[|r| - 1]))
  {
    if |s| > 0 && IsBlank(s[0]) then TrimBlanks(s[1..])
    else if |s| > 0 && IsBlank(s[|s| - 1]) then TrimBlanks(s[..|s| - 1])
    else s
  }

  /** Blanks around a text whose ends are not blanks are exactly what goes. */
  lemma {:induction false} TrimBlanksAround(lead: string, core: string, trail: string)
    requires AllBlank(lead) && AllBlank(trail)
    requires |core| > 0 && !IsBlank(core[0]) && !IsBlank(core[|core| - 1])
    ensures TrimBlanks(lead + core + trail) == core
  {
    var s := lead + core + trail;
    if |lead| > 0 {
      assert s[0] == lead[0];
      assert s[1..] == lead[1..] + core + trail;
      TrimBlanksAround(lead[1..], core, trail);
    } else if |trail| > 0 {
      assert s[0] == core[0];
      assert s[|s| - 1] == trail[|trail| - 1];
      assert s[..|s| - 1] == [] + core + trail[..|trail| - 1];
      TrimBlanksAround([], core, trail[..|trail| - 1]);
    } else {
      assert s == core;
    }
  }

  /** A string of an optional `+` or `-` and at least one ASCII digit. */
  predicate IsIntegerText(t: string) {
    if |t| > 0 && (t[0] == '-' || t[0] == '+') then |t| > 1 && AllDigits(t[1..]) else |t| > 0 && AllDigits(t)
  }

  /** `pd.to_numeric(x, errors="coerce")` on one cell, for integer values:
      the parser skips blanks at both ends and reads an optional sign. */
  function ToNumeric(c: Cell): (r: Cell)
    ensures r.Missing? || r.Int?
    ensures c.Missing? || c.Int? ==> r == c
  {
    match c
    case Missing => Missing
    case Int(n) => Int(n)
    case Date(ns) => Int(ns)
    case Str(s) =>
      var t := TrimBlanks(s);
      if !IsIntegerText(t) then Missing
      else if t[0] == '-' then Int(-(DigitsValue(t[1..]) as int))
      else if t[0] == '+' then Int(DigitsValue(t[1..]))
      else Int(DigitsValue(t))
  }

  /** The text of an integer, with or without a `+` and with blanks around it,
      converts back to that integer. */
  lemma ToNumericOfText(n: int, plus: bool, lead: string, trail: string)
    requires AllBlank(lead) && AllBlank(trail)
    ensures var sign := if n < 0 then "-" else if plus then "+" else "";
      ToNumeric(Str(lead + sign + NatText(if n < 0 then -n else n) + trail)) == Int(n)
  {
    var m: nat := if n < 0 then -n else n;
    var sign := if n < 0 then "-" else if plus then "+" else "";
    var core := sign + NatText(m);
    assert lead + sign + NatText(m) + trail == lead + core + trail;
    SignedText(n, plus);
    TrimBlanksAround(lead, core, trail);
  }

  /** The signed text of `n` is integer text without blanks at its ends, and
      its digits read back as the magnitude of `n`. */
  lemma SignedText(n: int, plus: bool)
    ensures var m: nat := if n < 0 then -n else n;
      var core := (if n < 0 then "-" else if plus then "+" else "") + NatText(m);
      && IsIntegerText(core) && !IsBlank(core[0]) && !IsBlank(core[|core| - 1])
      && (core[0] == '-' <==> n < 0)
      && (core[0] == '-' || core[0] == '+' ==> DigitsValue(core[1..]) == m)
      && (core[0] != '-' && core[0] != '+' ==> DigitsValue(core) == m)
  {
    var m: nat := if n < 0 then -n else n;
    var sign := if n < 0 then "-" else if plus then "+" else "";
    var core := sign + NatText(m);
    DigitsOfNatText(m);
    assert core[|core| - 1] == NatText(m)[|NatText(m)| - 1];
    if sign != "" {
      assert core[1..] == NatText(m);
    } else {
      assert core == NatText(m);
    }
  }

  // ---------------------------------------------------------------------------
  // Per-row facts the pipeline establishes
  // ---------------------------------------------------------------------------

  ghost predicate SalaryDerived(row: Row) {
    var s := ExtractSalaries(Get(row, "compensation"));
    Get(row, "salary_min") == MinCell(s) && Get(row, "salary_max") == MaxCell(s)
  }

  ghost predicate CompanyNormalised(row: Row, render: int -> string) {
    Get(row, "company_name") == Str(NormaliseCompany(Get(row, "company"), render))
  }

  ghost predicate DateDerived(row: Row, toDatetime: string -> Option<int>) {
    Get(row, "published_date_parsed") == ToDatetime(Get(row, "published_date"), toDatetime)
  }

  /** `company_name` is a stripped, lower-case string. */
  ghost predicate CompanyClean(row: Row) {
    var c := Get(row, "company_name");
    && c.Str?
    && (c.s == [] || (!IsSpace(c.s[0]) && !IsSpace(c.s[|c.s| - 1])))
    && forall k :: 0 <= k < |c.s| ==> !IsUpper(c.s[k])
  }

  // ---------------------------------------------------------------------------
  // The steps
  // ---------------------------------------------------------------------------

  /** Some compensation value makes `extract_salaries` raise. */
  ghost predicate SalaryRaises(t: Table) {
    exists i :: 0 <= i < |t.rows| && ExtractSalaries(Get(t.rows[i], "compensation")) == ValueError
  }

  /** The salary columns from the `extract_salaries` result of every row, in
      row order; the first raising row aborts. */
  function SalaryColumns(sals: seq<Salary>): (r: Result<(seq<Cell>, seq<Cell>), Error>)
    ensures r.Err? <==> ValueError in sals
    ensures r.Err? ==> r.error == ParseError
    ensures r.Ok? ==> |r.value.0| == |sals| && |r.value.1| == |sals|
    ensures r.Ok? ==> forall i :: 0 <= i < |sals| ==>
      r.value.0[i] == MinCell(sals[i]) && r.value.1[i] == MaxCell(sals[i])
  {
    if |sals| == 0 then Ok(([], []))
    else if sals[0] == ValueError then Err(ParseError)
    else
      var tail := sals[1..];
      assert forall i :: 1 <= i < |sals| ==> sals[i] == tail[i - 1];
      var rest := SalaryColumns(tail);
      if rest.Err? then Err(rest.error)
      else
        var mins := [MinCell(sals[0])] + rest.value.0;
        var maxs := [MaxCell(sals[0])] + rest.value.1;
        assert forall i :: 1 <= i < |sals| ==> mins[i] == rest.value.0[i - 1] && maxs[i] == rest.value.1[i - 1];
        Ok((mins, maxs))
  }

  /** `extract_salaries` of every row's `compensation`. */
  function RowSalaries(t: Table): (sals: seq<Salary>)
    ensures |sals| == |t.rows|
    ensures forall i :: 0 <= i < |t.rows| ==> sals[i] == ExtractSalaries(Get(t.rows[i], "compensation"))
  {
    seq(|t.rows|, i requires 0 <= i < |t.rows| => ExtractSalaries(Get(t.rows[i], "compensation")))
  }

  /** Some row's result is a `ValueError` exactly when some row raises. */
  lemma RowSalariesRaise(t: Table)
    ensures ValueError in RowSalaries(t) <==> SalaryRaises(t)
  {
    var sals := RowSalaries(t);
    if ValueError in sals {
      var i :| 0 <= i < |sals| && sals[i] == ValueError;
      assert ExtractSalaries(Get(t.rows[i], "compensation")) == ValueError;
    }
    if SalaryRaises(t) {
      var i :| 0 <= i < |t.rows| && ExtractSalaries(Get(t.rows[i], "compensation")) == ValueError;
      assert sals[i] == ValueError;
    }
  }

  /** Step 1: `salary_min` and `salary_max` from `compensation`, when present. */
  function DeriveSalaries(t: Table): (r: Result<Table, Error>)
    ensures "compensation" !in t.cols ==> r == Ok(t)
    ensures "compensation" in t.cols ==> (r.Err? <==> SalaryRaises(t))
    ensures r.Err? ==> r.error == ParseError
    ensures r.Ok? && "compensation" in t.cols ==>
      var u := r.value;
      && u.cols == WithColumn(WithColumn(t.cols, "salary_min"), "salary_max")
      && |u.rows| == |t.rows|
      && (forall i :: 0 <= i < |u.rows| ==> SalaryDerived(u.rows[i]))
      && (forall i, c :: 0 <= i < |t.rows| && c != "salary_min" && c != "salary_max" ==> Get(u.rows[i], c) == Get(t.rows[i], c))
  {
    if "compensation" !in t.cols then Ok(t)
    else
      var sals := RowSalaries(t);
      RowSalariesRaise(t);
      match SalaryColumns(sals)
      case Err(e) => Err(e)
      case Ok((mins, maxs)) =>
        var t1 := SetColumn(t, "salary_min", mins);
        var t2 := SetColumn(t1, "salary_max", maxs);
        assert forall i :: 0 <= i < |t2.rows| ==> Get(t2.rows[i], "compensation") == Get(t.rows[i], "compensation");
        assert forall i :: 0 <= i < |t2.rows| ==> Get(t2.rows[i], "salary_min") == mins[i];
        Ok(t2)
  }

  /** Step 2: `company_name` copies `company`, when present. */
  function CopyCompany(t: Table): (r: Table)
    ensures "company" !in t.cols ==> r == t
    ensures "company" in t.cols ==>
      && r.cols == WithColumn(t.cols, "company_name")
      && SameOutside(t, r, "company_name")
      && forall i :: 0 <= i < |r.rows| ==> Get(r.rows[i], "company_name") == Get(r.rows[i], "company")
  {
    if "company" in t.cols then SetColumn(t, "company_name", Column(t, "company")) else t
  }

  /** Step 3: keep-first dedup on `id`, skipped without an `id` column. */
  function DropDuplicateIds(t: Table): (r: Table)
    ensures r.cols == t.cols
    ensures |r.rows| <= |t.rows|
    ensures forall i :: 0 <= i < |r.rows| ==> r.rows[i] in t.rows
    ensures "id" !in t.cols ==> r == t
    ensures "id" in t.cols ==> r == DropDuplicates(t, "id")
  {
    if "id" in t.cols then DropDuplicates(t, "id") else t
  }

  /** Step 3b: `published_date_parsed` from `published_date`, when present. */
  function ParseDates(t: Table, toDatetime: string -> Option<int>): (r: Table)
    ensures "published_date" !in t.cols ==> r == t
    ensures "published_date" in t.cols ==>
      && r.cols == WithColumn(t.cols, "published_date_parsed")
      && SameOutside(t, r, "published_date_parsed")
      && forall i :: 0 <= i < |r.rows| ==> DateDerived(r.rows[i], toDatetime)
  {
    if "published_date" !in t.cols then t
    else
      var cells := Column(t, "published_date");
      var r := SetColumn(t, "published_date_parsed",
        seq(|cells|, i requires 0 <= i < |cells| => ToDatetime(cells[i], toDatetime)));
      assert forall i :: 0 <= i < |r.rows| ==> Get(r.rows[i], "published_date") == cells[i];
      r
  }

  /** Step 4: `company_name` becomes `str(x).strip().lower()`; `KeyError`
      without a `company_name` column. */
  function NormaliseCompanies(t: Table, render: int -> string): (r: Result<Table, Error>)
    ensures r.Err? <==> "company_name" !in t.cols
    ensures r.Err? ==> r.error == KeyError("company_name")
    ensures r.Ok? ==>
      && r.value.cols == t.cols
      && SameOutside(t, r.value, "company_name")
      && forall i :: 0 <= i < |t.rows| ==>
           Get(r.value.rows[i], "company_name") == Str(NormaliseCompany(Get(t.rows[i], "company_name"), render))
  {
    if "company_name" !in t.cols then Err(KeyError("company_name"))
    else
      var cells := Column(t, "company_name");
      Ok(SetColumn(t, "company_name",
        seq(|cells|, i requires 0 <= i < |cells| => Str(NormaliseCompany(cells[i], render)))))
  }

  /** Step 5: `salary_min` through `pd.to_numeric`; `KeyError` without it. */
  function NumericSalaryMin(t: Table): (r: Result<Table, Error>)
    ensures r.Err? <==> "salary_min" !in t.cols
    ensures r.Err? ==> r.error == KeyError("salary_min")
    ensures r.Ok? ==>
      && r.value.cols == t.cols
      && SameOutside(t, r.value, "salary_min")
      && forall i :: 0 <= i < |t.rows| ==> Get(r.value.rows[i], "salary_min") == ToNumeric(Get(t.rows[i], "salary_min"))
  {
    if "salary_min" !in t.cols then Err(KeyError("salary_min"))
    else
      var cells := Column(t, "salary_min");
      Ok(SetColumn(t, "salary_min", seq(|cells|, i requires 0 <= i < |cells| => ToNumeric(cells[i]))))
  }

  /** `df[sanitised_cols]`. */
  function Project(t: Table): (r: Result<Table, Error>)
    ensures r.Ok? <==> forall i :: 0 <= i < |SanitisedColumns| ==> SanitisedColumns[i] in t.cols
    ensures r.Err? ==> r.error.KeyError? && r.error.column in SanitisedColumns && r.error.column !in t.cols
    ensures r.Ok? ==> r.value.cols == SanitisedColumns && |r.value.rows| == |t.rows|
    ensures r.Ok? ==> forall i, c :: 0 <= i < |t.rows| && c in SanitisedColumns ==> Get(r.value.rows[i], c) == Get(t.rows[i], c)
  {
    match Select(t, SanitisedColumns)
    case Err(c) => Err(KeyError(c))
    case Ok(u) => Ok(u)
  }

  // ---------------------------------------------------------------------------
  // The whole function
  // ---------------------------------------------------------------------------

  /** What one call produces: the frame it returns (all columns), the
      sanitised table it writes, and the quality report it writes. */
  datatype Outcome = Outcome(returned: Table, sanitised: Table, report: seq<(string, Reporting.Value)>)

  /** Steps 2, 3 and 3b, which cannot fail. */
  function Prepare(t1: Table, toDatetime: string -> Option<int>): Table {
    ParseDates(DropDuplicateIds(CopyCompany(t1)), toDatetime)
  }

  /** Steps 4 and 5. */
  function Finish(t4: Table, render: int -> string): Result<Table, Error> {
    match NormaliseCompanies(t4, render)
    case Err(e) => Err(e)
    case Ok(t5) => NumericSalaryMin(t5)
  }

  /** Steps 1 to 5, before the projection. */
  function Clean(df: Table, toDatetime: string -> Option<int>, render: int -> string): Result<Table, Error> {
    match DeriveSalaries(df)
    case Err(e) => Err(e)
    case Ok(t1) => Finish(Prepare(t1, toDatetime), render)
  }

  /** `cleanup_and_analyse(df)`: returns the unprojected frame, having
      written the projection and its report. */
  function CleanupAndAnalyse(df: Table, toDatetime: string -> Option<int>, render: int -> string): Result<Outcome, Error> {
    match Clean(df, toDatetime, render)
    case Err(e) => Err(e)
    case Ok(t) =>
      match Project(t)
      case Err(e) => Err(e)
      case Ok(s) => Ok(Outcome(t, s, Reporting.QualityReport(s, render)))
  }

  // ---------------------------------------------------------------------------
  // What the whole function guarantees
  // ---------------------------------------------------------------------------

  /** The columns steps 1 to 5 leave: the input's, then `salary_min` and
      `salary_max` (with `compensation`), `company_name` (with `company`) and
      `published_date_parsed` (with `published_date`), each added only when
      not already there. */
  function CleanColumns(cols: seq<string>): seq<string> {
    var c1 := if "compensation" in cols then WithColumn(WithColumn(cols, "salary_min"), "salary_max") else cols;
    var c2 := if "company" in cols then WithColumn(c1, "company_name") else c1;
    if "published_date" in cols then WithColumn(c2, "published_date_parsed") else c2
  }

  /** `u` has as many rows as `t`, each with the same `id` cell. */
  ghost predicate SameIds(t: Table, u: Table) {
    |u.rows| == |t.rows| && forall i :: 0 <= i < |t.rows| ==> Get(u.rows[i], "id") == Get(t.rows[i], "id")
  }

  /** The columns steps 2, 3 and 3b leave. */
  lemma PrepareColumns(t1: Table, toDatetime: string -> Option<int>)
    ensures var c1 := t1.cols;
      var c2 := if "company" in c1 then WithColumn(c1, "company_name") else c1;
      Prepare(t1, toDatetime).cols == if "published_date" in c1 then WithColumn(c2, "published_date_parsed") else c2
  {
  }

  /** A step that changes one column other than the three salary columns
      keeps every row's salaries derived. */
  lemma SalariesOutside(t: Table, r: Table, changed: string)
    requires SameOutside(t, r, changed)
    requires changed != "compensation" && changed != "salary_min" && changed != "salary_max"
    requires forall i :: 0 <= i < |t.rows| ==> SalaryDerived(t.rows[i])
    ensures forall i :: 0 <= i < |r.rows| ==> SalaryDerived(r.rows[i])
  {
    forall i | 0 <= i < |r.rows| ensures SalaryDerived(r.rows[i]) {
      assert SalaryDerived(t.rows[i]);
      assert Get(r.rows[i], "compensation") == Get(t.rows[i], "compensation");
      assert Get(r.rows[i], "salary_min") == Get(t.rows[i], "salary_min");
      assert Get(r.rows[i], "salary_max") == Get(t.rows[i], "salary_max");
    }
  }

  /** Steps 2, 3 and 3b keep the salary columns derived from `compensation`. */
  lemma PrepareKeepsSalaries(t1: Table, toDatetime: string -> Option<int>)
    requires forall i :: 0 <= i < |t1.rows| ==> SalaryDerived(t1.rows[i])
    ensures var t4 := Prepare(t1, toDatetime);
      forall i :: 0 <= i < |t4.rows| ==> SalaryDerived(t4.rows[i])
  {
    var t2 := CopyCompany(t1);
    if "company" in t1.cols {
      SalariesOutside(t1, t2, "company_name");
    }
    var t3 := DropDuplicateIds(t2);
    assert forall i :: 0 <= i < |t3.rows| ==> SalaryDerived(t3.rows[i]);
    var t4 := ParseDates(t3, toDatetime);
    if "published_date" in t3.cols {
      SalariesOutside(t3, t4, "published_date_parsed");
    }
  }

  /** After steps 2, 3 and 3b `company_name` is still a copy of `company`. */
  lemma PrepareCopiesCompany(t1: Table, toDatetime: string -> Option<int>)
    requires "company" in t1.cols
    ensures var t4 := Prepare(t1, toDatetime);
      forall i :: 0 <= i < |t4.rows| ==> Get(t4.rows[i], "company_name") == Get(t4.rows[i], "company")
  {
    var t2 := CopyCompany(t1);
    var t3 := DropDuplicateIds(t2);
    assert forall i :: 0 <= i < |t3.rows| ==> Get(t3.rows[i], "company_name") == Get(t3.rows[i], "company");
    var t4 := ParseDates(t3, toDatetime);
    if "published_date" in t3.cols {
      assert forall i :: 0 <= i < |t4.rows| ==>
        Get(t4.rows[i], "company_name") == Get(t3.rows[i], "company_name") && Get(t4.rows[i], "company") == Get(t3.rows[i], "company");
    }
  }

  /** Steps 4 and 5 succeed exactly when `company_name` and `salary_min`
      exist, keep the columns, and leave a clean `company_name`. */
  lemma FinishFacts(t4: Table, render: int -> string)
    ensures var r := Finish(t4, render);
      && (r.Ok? <==> "company_name" in t4.cols && "salary_min" in t4.cols)
      && (r.Ok? ==> r.value.cols == t4.cols && |r.value.rows| == |t4.rows|)
      && (r.Ok? ==> forall i :: 0 <= i < |t4.rows| ==> CompanyClean(r.value.rows[i]))
      && (r.Ok? ==> forall i :: 0 <= i < |t4.rows| ==>
            Get(r.value.rows[i], "company_name") == Str(NormaliseCompany(Get(t4.rows[i], "company_name"), render)))
      && (r.Ok? ==> forall i, c :: 0 <= i < |t4.rows| && c != "company_name" && c != "salary_min" ==>
            Get(r.value.rows[i], c) == Get(t4.rows[i], c))
      && (r.Ok? ==> forall i :: 0 <= i < |t4.rows| ==>
            Get(r.value.rows[i], "salary_min") == ToNumeric(Get(t4.rows[i], "salary_min")))
  {
    var n := NormaliseCompanies(t4, render);
    if n.Ok? {
      var t5 := n.value;
      var r := NumericSalaryMin(t5);
      assert Finish(t4, render) == r;
      assert "salary_min" in t5.cols <==> "salary_min" in t4.cols;
      if r.Ok? {
        var t6 := r.value;
        forall i | 0 <= i < |t4.rows|
          ensures Get(t6.rows[i], "company_name") == Get(t5.rows[i], "company_name")
          ensures Get(t6.rows[i], "salary_min") == ToNumeric(Get(t4.rows[i], "salary_min"))
        {
          assert Get(t5.rows[i], "salary_min") == Get(t4.rows[i], "salary_min");
        }
        forall i, c | 0 <= i < |t4.rows| && c != "company_name" && c != "salary_min"
          ensures Get(t6.rows[i], c) == Get(t4.rows[i], c)
        {
          assert Get(t6.rows[i], c) == Get(t5.rows[i], c);
        }
        forall i | 0 <= i < |t4.rows| ensures CompanyClean(t6.rows[i]) {
          assert Get(t6.rows[i], "company_name") == Str(NormaliseCompany(Get(t4.rows[i], "company_name"), render));
        }
      }
    } else {
      assert Finish(t4, render) == Err(n.error);
    }
  }


  /** The cleaned columns are the input's followed by the derived ones. */
  lemma CleanColumnsExtend(cols: seq<string>)
    ensures |cols| <= |CleanColumns(cols)| && CleanColumns(cols)[..|cols|] == cols
    ensures forall c :: c in cols ==> c in CleanColumns(cols)
  {
  }

  /** Step 1 adds only the salary columns, so the later steps see the same
      `company` and `published_date` columns, and end with `CleanColumns`. */
  lemma DeriveThenPrepareColumns(df: Table, toDatetime: string -> Option<int>)
    requires DeriveSalaries(df).Ok?
    ensures Prepare(DeriveSalaries(df).value, toDatetime).cols == CleanColumns(df.cols)
  {
    var t1 := DeriveSalaries(df).value;
    assert "company" in t1.cols <==> "company" in df.cols;
    assert "published_date" in t1.cols <==> "published_date" in df.cols;
    PrepareColumns(t1, toDatetime);
  }

  /** When steps 1 to 5 succeed, and the columns they leave. */
  lemma CleanSucceeds(df: Table, toDatetime: string -> Option<int>, render: int -> string)
    ensures var r := Clean(df, toDatetime, render);
      && (r.Err? <==>
           ("compensation" in df.cols && SalaryRaises(df))
           || "company_name" !in CleanColumns(df.cols)
           || "salary_min" !in CleanColumns(df.cols))
      && ("compensation" in df.cols && SalaryRaises(df) ==> r == Err(ParseError))
      && (r.Err? && !("compensation" in df.cols && SalaryRaises(df)) ==>
            && r.error.KeyError?
            && r.error.column in ["company_name", "salary_min"]
            && r.error.column !in CleanColumns(df.cols))
      && (r.Ok? ==> r.value.cols == CleanColumns(df.cols))
  {
    var d := DeriveSalaries(df);
    if d.Err? {
      assert Clean(df, toDatetime, render) == Err(ParseError);
    } else {
      var t4 := Prepare(d.value, toDatetime);
      assert Clean(df, toDatetime, render) == Finish(t4, render);
      DeriveThenPrepareColumns(df, toDatetime);
      FinishFacts(t4, render);
    }
  }

  /** Steps 4 and 5 keep the salary columns derived from `compensation`:
      `to_numeric` leaves integers and NaN as they are. */
  lemma FinishKeepsSalaries(t4: Table, render: int -> string)
    requires forall i :: 0 <= i < |t4.rows| ==> SalaryDerived(t4.rows[i])
    ensures var r := Finish(t4, render);
      r.Ok? ==> forall i :: 0 <= i < |r.value.rows| ==> SalaryDerived(r.value.rows[i])
  {
    FinishFacts(t4, render);
  }

  /** Step 4 turns the copied company into its normalised form. */
  lemma FinishNormalisesCompany(t4: Table, render: int -> string)
    requires forall i :: 0 <= i < |t4.rows| ==> Get(t4.rows[i], "company_name") == Get(t4.rows[i], "company")
    ensures var r := Finish(t4, render);
      r.Ok? ==> forall i :: 0 <= i < |r.value.rows| ==> CompanyNormalised(r.value.rows[i], render)
  {
    FinishFacts(t4, render);
  }

  /** Steps 4 and 5 leave the parsed dates alone. */
  lemma FinishKeepsDates(t4: Table, toDatetime: string -> Option<int>, render: int -> string)
    requires forall i :: 0 <= i < |t4.rows| ==> DateDerived(t4.rows[i], toDatetime)
    ensures var r := Finish(t4, render);
      r.Ok? ==> forall i :: 0 <= i < |r.value.rows| ==> DateDerived(r.value.rows[i], toDatetime)
  {
    FinishFacts(t4, render);
  }

  /** What every row of the returned frame satisfies: a clean
      `company_name`, the normalised `company` when there is one, the salary
      pair of its own `compensation`, and the parse of its own
      `published_date`. */
  lemma CleanRows(df: Table, toDatetime: string -> Option<int>, render: int -> string)
    ensures var r := Clean(df, toDatetime, render);
      r.Ok? ==>
        && (forall i :: 0 <= i < |r.value.rows| ==> CompanyClean(r.value.rows[i]))
        && ("compensation" in df.cols ==> forall i :: 0 <= i < |r.value.rows| ==> SalaryDerived(r.value.rows[i]))
        && ("company" in df.cols ==> forall i :: 0 <= i < |r.value.rows| ==> CompanyNormalised(r.value.rows[i], render))
        && ("published_date" in df.cols ==> forall i :: 0 <= i < |r.value.rows| ==> DateDerived(r.value.rows[i], toDatetime))
  {
    var d := DeriveSalaries(df);
    if d.Ok? {
      var t1 := d.value;
      var t4 := Prepare(t1, toDatetime);
      assert Clean(df, toDatetime, render) == Finish(t4, render);
      FinishFacts(t4, render);
      if "compensation" in df.cols {
        PrepareKeepsSalaries(t1, toDatetime);
        FinishKeepsSalaries(t4, render);
      }
      if "company" in df.cols {
        assert "company" in t1.cols;
        PrepareCopiesCompany(t1, toDatetime);
        FinishNormalisesCompany(t4, render);
      }
      if "published_date" in df.cols {
        assert "published_date" in DropDuplicateIds(CopyCompany(t1)).cols;
        FinishKeepsDates(t4, toDatetime, render);
      }
    }
  }

  /** Rows that keep their `id`s one for one keep the set of `id`s and
      their distinctness. */
  lemma SameIdsKeys(t: Table, u: Table)
    requires SameIds(t, u)
    ensures Dedup.Keys(u.rows, KeyOf("id")) == Dedup.Keys(t.rows, KeyOf("id"))
    ensures Dedup.DistinctKeys(t.rows, KeyOf("id")) ==> Dedup.DistinctKeys(u.rows, KeyOf("id"))
  {
    var key := KeyOf("id");
    forall k | k in Dedup.Keys(u.rows, key) ensures k in Dedup.Keys(t.rows, key) {
      var i :| 0 <= i < |u.rows| && key(u.rows[i]) == k;
      assert key(t.rows[i]) == k;
    }
    forall k | k in Dedup.Keys(t.rows, key) ensures k in Dedup.Keys(u.rows, key) {
      var i :| 0 <= i < |t.rows| && key(t.rows[i]) == k;
      assert key(u.rows[i]) == k;
    }
  }

  /** The steps other than the dedup keep every row's `id` in place. */
  lemma DeriveKeepsIds(t: Table)
    ensures var d := DeriveSalaries(t); d.Ok? ==> SameIds(t, d.value)
  {
    var d := DeriveSalaries(t);
    if d.Ok? && "compensation" in t.cols {
      assert "id" != "salary_min" && "id" != "salary_max";
      forall i | 0 <= i < |t.rows| ensures Get(d.value.rows[i], "id") == Get(t.rows[i], "id") {
      }
    }
  }

  lemma CopyKeepsIds(t: Table)
    ensures SameIds(t, CopyCompany(t))
  {
    assert "id" != "company_name";
  }

  lemma ParseKeepsIds(t: Table, toDatetime: string -> Option<int>)
    ensures SameIds(t, ParseDates(t, toDatetime))
  {
    assert "id" != "published_date_parsed";
  }

  lemma FinishKeepsIds(t: Table, render: int -> string)
    ensures var r := Finish(t, render); r.Ok? ==> SameIds(t, r.value)
  {
    FinishFacts(t, render);
    var r := Finish(t, render);
    if r.Ok? {
      assert "id" != "company_name" && "id" != "salary_min";
      forall i | 0 <= i < |t.rows| ensures Get(r.value.rows[i], "id") == Get(t.rows[i], "id") {
      }
    }
  }

  lemma SameIdsTrans(t: Table, u: Table, v: Table)
    requires SameIds(t, u) && SameIds(u, v)
    ensures SameIds(t, v)
  {
  }

  /** Copying the company, dropping duplicate ids, parsing the dates and
      steps 4 and 5: only the dedup changes the rows' count and `id`s. */
  lemma PipelineDedup(t1: Table, toDatetime: string -> Option<int>, render: int -> string)
    ensures var r := Finish(Prepare(t1, toDatetime), render);
      r.Ok? ==>
        && |r.value.rows| <= |t1.rows|
        && ("id" !in t1.cols ==> |r.value.rows| == |t1.rows|)
        && ("id" in t1.cols ==>
              && Dedup.DistinctKeys(r.value.rows, KeyOf("id"))
              && Dedup.Keys(r.value.rows, KeyOf("id")) == Dedup.Keys(t1.rows, KeyOf("id")))
  {
    var t2 := CopyCompany(t1);
    var t3 := DropDuplicateIds(t2);
    var t4 := ParseDates(t3, toDatetime);
    var r := Finish(t4, render);
    CopyKeepsIds(t1);
    ParseKeepsIds(t3, toDatetime);
    FinishKeepsIds(t4, render);
    assert "id" in t2.cols <==> "id" in t1.cols;
    if r.Ok? {
      SameIdsTrans(t3, t4, r.value);
      SameIdsKeys(t1, t2);
      SameIdsKeys(t3, r.value);
    }
  }

  /** Dropping duplicate ids is the only step that changes the row count,
      and it leaves one row per id that was there. */
  lemma CleanDedup(df: Table, toDatetime: string -> Option<int>, render: int -> string)
    ensures var r := Clean(df, toDatetime, render);
      r.Ok? ==>
        && |r.value.rows| <= |df.rows|
        && ("id" !in df.cols ==> |r.value.rows| == |df.rows|)
        && ("id" in df.cols ==>
              && Dedup.DistinctKeys(r.value.rows, KeyOf("id"))
              && Dedup.Keys(r.value.rows, KeyOf("id")) == Dedup.Keys(df.rows, KeyOf("id")))
  {
    var d := DeriveSalaries(df);
    var r := Clean(df, toDatetime, render);
    if d.Ok? && r.Ok? {
      var t1 := d.value;
      assert r == Finish(Prepare(t1, toDatetime), render);
      PipelineDedup(t1, toDatetime, render);
      DeriveKeepsIds(df);
      assert |t1.rows| == |df.rows|;
      assert "id" in t1.cols <==> "id" in df.cols;
      if "id" in df.cols {
        SameIdsKeys(df, t1);
      }
    }
  }

  /** When `cleanup_and_analyse` succeeds and how it fails: a compensation
      that makes the parser raise aborts it with that error, and otherwise
      it fails exactly when a sanitised column is absent, with a `KeyError`
      naming one. */
  lemma CleanupVerdict(df: Table, toDatetime: string -> Option<int>, render: int -> string)
    ensures var r := CleanupAndAnalyse(df, toDatetime, render);
      && (r.Ok? <==>
           !("compensation" in df.cols && SalaryRaises(df))
           && forall i :: 0 <= i < |SanitisedColumns| ==> SanitisedColumns[i] in CleanColumns(df.cols))
      && ("compensation" in df.cols && SalaryRaises(df) ==> r == Err(ParseError))
      && (r.Err? && !("compensation" in df.cols && SalaryRaises(df)) ==>
            r.error.KeyError? && r.error.column in SanitisedColumns && r.error.column !in CleanColumns(df.cols))
  {
    CleanSucceeds(df, toDatetime, render);
    var c := Clean(df, toDatetime, render);
    var r := CleanupAndAnalyse(df, toDatetime, render);
    var raises := "compensation" in df.cols && SalaryRaises(df);
    if c.Err? {
      assert r == Err(c.error);
      if !raises {
        SanitisedNeedsDerived(CleanColumns(df.cols));
      }
    } else {
      var p := Project(c.value);
      assert c.value.cols == CleanColumns(df.cols);
      assert r.Ok? <==> p.Ok?;
      assert p.Err? ==> r == Err(p.error);
    }
  }

  /** Projection needs the two columns the cleanup steps derive. */
  lemma SanitisedNeedsDerived(cols: seq<string>)
    ensures (forall i :: 0 <= i < |SanitisedColumns| ==> SanitisedColumns[i] in cols) ==>
      "company_name" in cols && "salary_min" in cols
  {
    assert SanitisedColumns[2] == "company_name" && SanitisedColumns[6] == "salary_min";
  }

  /** What a successful `cleanup_and_analyse` produces: the returned frame
      keeps every column the steps made, the sanitised frame holds exactly
      the sanitised columns with the same values row for row, no row is
      added, and the report is the quality report of the sanitised frame. */
  lemma CleanupOutcome(df: Table, toDatetime: string -> Option<int>, render: int -> string)
    ensures var r := CleanupAndAnalyse(df, toDatetime, render);
      r.Ok? ==>
        && r.value.sanitised.cols == SanitisedColumns
        && r.value.returned.cols == CleanColumns(df.cols)
        && |r.value.sanitised.rows| == |r.value.returned.rows| <= |df.rows|
        && (forall i, c :: 0 <= i < |r.value.returned.rows| && c in SanitisedColumns ==>
              Get(r.value.sanitised.rows[i], c) == Get(r.value.returned.rows[i], c))
        && r.value.report == Reporting.QualityReport(r.value.sanitised, render)
  {
    var c := Clean(df, toDatetime, render);
    if c.Ok? {
      CleanSucceeds(df, toDatetime, render);
      CleanDedup(df, toDatetime, render);
      var p := Project(c.value);
      if p.Ok? {
        assert CleanupAndAnalyse(df, toDatetime, render) == Ok(Outcome(c.value, p.value, Reporting.QualityReport(p.value, render)));
      }
    }
  }

  /** A date column holds only timestamps and missing values. */
  predicate OnlyDates(t: Table, col: string) {
    forall i :: 0 <= i < |t.rows| ==> Get(t.rows[i], col).Date? || Get(t.rows[i], col).Missing?
  }

  /** With a `published_date` column, step 3b writes `published_date_parsed`
      itself, so after cleaning it holds only timestamps and missing values. */
  lemma CleanedDatesAreDates(df: Table, toDatetime: string -> Option<int>, render: int -> string)
    requires "published_date" in df.cols
    ensures var c := Clean(df, toDatetime, render);
      c.Ok? ==> OnlyDates(c.value, "published_date_parsed")
  {
    var c := Clean(df, toDatetime, render);
    if c.Ok? {
      CleanRows(df, toDatetime, render);
      forall i | 0 <= i < |c.value.rows|
        ensures Get(c.value.rows[i], "published_date_parsed").Date? || Get(c.value.rows[i], "published_date_parsed").Missing?
      {
        assert DateDerived(c.value.rows[i], toDatetime);
      }
    }
  }

  /** Projection keeps a date column that holds only dates. */
  lemma ProjectKeepsDates(t: Table)
    requires OnlyDates(t, "published_date_parsed")
    ensures Project(t).Ok? ==> OnlyDates(Project(t).value, "published_date_parsed")
  {
    assert SanitisedColumns[8] == "published_date_parsed";
  }

  /** ... and so does the sanitised frame the report is computed from: the
      report's date range is over every non-missing cell of the column. */
  lemma ReportedDatesAreDates(df: Table, toDatetime: string -> Option<int>, render: int -> string)
    requires "published_date" in df.cols
    ensures var r := CleanupAndAnalyse(df, toDatetime, render);
      r.Ok? ==> OnlyDates(r.value.sanitised, "published_date_parsed")
  {
    var c := Clean(df, toDatetime, render);
    if c.Ok? {
      CleanedDatesAreDates(df, toDatetime, render);
      ProjectKeepsDates(c.value);
    }
  }

  /** The frame of the repository's cleanup test (`job_id`, `salary_min`,
      `company_name`, no `id`): nothing is deduplicated, and the projection
      raises `KeyError` for a missing sanitised column, so no frame comes back
      at all, let alone one with two rows. */
  lemma TestFrameRaisesKeyError(df: Table, toDatetime: string -> Option<int>, render: int -> string)
    requires df.cols == ["job_id", "salary_min", "company_name"]
    ensures var r := CleanupAndAnalyse(df, toDatetime, render);
      r.Err? && r.error.KeyError? && r.error.column in SanitisedColumns
  {
    assert "compensation" !in df.cols;
    assert CleanColumns(df.cols) == df.cols;
    CleanSucceeds(df, toDatetime, render);
    var c := Clean(df, toDatetime, render);
    assert c.Ok?;
    assert SanitisedColumns[0] !in c.value.cols;
    var p := Project(c.value);
    assert p.Err?;
    assert CleanupAndAnalyse(df, toDatetime, render) == Err(p.error);
  }
}

=== FILE: common.dfy ===
/** Failure-carrying wrappers shared by every module of the model. */
module Common {

  /** A value that may be absent (Python's `None`). */
  datatype Option<+T> = None | Some(value: T)

  /** The outcome of a step that may raise: `Err` carries the exception the
      program would raise at that point. */
  datatype Result<+T, +E> = Ok(value: T) | Err(error: E)
}

=== FILE: dedup.dfy ===
/** Keep-first deduplication by key, the behaviour shared by pandas'
    `drop_duplicates(subset=...)` (default `keep="first"`) and the scraper's
    `seen_ids` accumulation. */
module Dedup {

  /** The set of keys occurring in `xs`. */
  function Keys<X(==), K(==)>(xs: seq<X>, key: X -> K): (ks: set<K>)
    ensures forall i :: 0 <= i < |xs| ==> key(xs[i]) in ks
    ensures forall k :: k in ks ==> exists i :: 0 <= i < |xs| && key(xs[i]) == k
  {
    set i | 0 <= i < |xs| :: key(xs[i])
  }

  /** No two elements of `xs` share a key. */
  predicate DistinctKeys<X(==), K(==)>(xs: seq<X>, key: X -> K) {
    forall i, j :: 0 <= i < j < |xs| ==> key(xs[i]) != key(xs[j])
  }

  /** Position `i` holds the first element of `xs` with its key. */
  predicate FirstOccurrence<X(==), K(==)>(xs: seq<X>, key: X -> K, i: int)
    requires 0 <= i < |xs|
  {
    forall j :: 0 <= j < i ==> key(xs[j]) != key(xs[i])
  }

  /** The reference definition: the elements of `xs` whose key is not in
      `seen` and has not occurred earlier in `xs`, in their original order.
      It is stated from the back: the last element is kept exactly when its
      key is new with respect to `seen` and everything before it. */
  function Unseen<X(==), K(==)>(xs: seq<X>, key: X -> K, seen: set<K>): (r: seq<X>)
    ensures |r| <= |xs|
    ensures DistinctKeys(r, key)
    ensures Keys(r, key) == Keys(xs, key) - seen
    ensures forall i :: 0 <= i < |r| ==> r[i] in xs && key(r[i]) !in seen
  {
    if |xs| == 0 then []
    else
      var init := xs[..|xs| - 1];
      var last := xs[|xs| - 1];
      var prev := Unseen(init, key, seen);
      assert xs == init + [last];
      if key(last) in seen || key(last) in Keys(init, key) then
        KeysAppend(init, [last], key);
        assert Keys([last], key) == {key(last)};
        prev
      else
        var r := prev + [last];
        KeysAppend(prev, [last], key);
        KeysAppend(init, [last], key);
        assert Keys([last], key) == {key(last)};
        r
  }

  /** `drop_duplicates(keep="first")` on a key: the first element of every key. */
  function KeepFirst<X(==), K(==)>(xs: seq<X>, key: X -> K): seq<X>
  {
    Unseen(xs, key, {})
  }

  /** Filtering a concatenation filters the first part, then the second part
      against everything the first part contributed. */
  lemma {:induction false} UnseenAppend<X, K>(a: seq<X>, b: seq<X>, key: X -> K, seen: set<K>)
    ensures Unseen(a + b, key, seen) == Unseen(a, key, seen) + Unseen(b, key, seen + Keys(a, key))
  {
    if |b| == 0 {
      assert a + b == a;
    } else {
      var binit := b[..|b| - 1];
      var last := b[|b| - 1];
      var seen' := seen + Keys(a, key);
      assert (a + b)[..|a + b| - 1] == a + binit;
      assert (a + b)[|a + b| - 1] == last;
      UnseenAppend(a, binit, key, seen);
      KeysAppend(a, binit, key);
      var isNew := !(key(last) in seen || key(last) in Keys(a + binit, key));
      assert isNew == !(key(last) in seen' || key(last) in Keys(binit, key));
      if isNew {
        calc {
          Unseen(a + b, key, seen);
          Unseen(a + binit, key, seen) + [last];
          Unseen(a, key, seen) + Unseen(binit, key, seen') + [last];
          Unseen(a, key, seen) + Unseen(b, key, seen');
        }
      } else {
        calc {
          Unseen(a + b, key, seen);
          Unseen(a + binit, key, seen);
          Unseen(a, key, seen) + Unseen(b, key, seen');
        }
      }
    }
  }

  lemma KeysAppend<X, K>(a: seq<X>, b: seq<X>, key: X -> K)
    ensures Keys(a + b, key) == Keys(a, key) + Keys(b, key)
  {
    forall k | k in Keys(a + b, key) ensures k in Keys(a, key) + Keys(b, key) {
      var i :| 0 <= i < |a + b| && key((a + b)[i]) == k;
      if i >= |a| {
        assert b[i - |a|] == (a + b)[i];
        assert k in Keys(b, key);
      } else {
        assert a[i] == (a + b)[i];
        assert k in Keys(a, key);
      }
    }
    forall k | k in Keys(a, key) ensures k in Keys(a + b, key) {
      var i :| 0 <= i < |a| && key(a[i]) == k;
      assert (a + b)[i] == a[i];
    }
    forall k | k in Keys(b, key) ensures k in Keys(a + b, key) {
      var i :| 0 <= i < |b| && key(b[i]) == k;
      assert (a + b)[|a| + i] == b[i];
    }
  }

  /** What was kept from a prefix stays, in the same order, at the front of
      what is kept from the whole sequence. */
  lemma KeepFirstPrefix<X, K>(xs: seq<X>, n: nat, key: X -> K)
    requires n <= |xs|
    ensures KeepFirst(xs[..n], key) <= KeepFirst(xs, key)
  {
    assert xs == xs[..n] + xs[n..];
    UnseenAppend(xs[..n], xs[n..], key, {});
  }

  /** A sequence whose keys are already distinct is left as it is. */
  lemma {:induction false} UnseenOfDistinct<X, K>(xs: seq<X>, key: X -> K, seen: set<K>)
    requires DistinctKeys(xs, key)
    requires Keys(xs, key) !! seen
    ensures Unseen(xs, key, seen) == xs
  {
    if |xs| > 0 {
      var init := xs[..|xs| - 1];
      UnseenOfDistinct(init, key, seen);
      assert key(xs[|xs| - 1]) !in Keys(init, key);
      assert init + [xs[|xs| - 1]] == xs;
    }
  }

  /** Every kept element sits at the first position of its key. */
  lemma {:induction false} UnseenKeepsFirst<X, K>(xs: seq<X>, key: X -> K, seen: set<K>, i: nat)
    requires i < |xs|
    requires FirstOccurrence(xs, key, i) && key(xs[i]) !in seen
    ensures xs[i] in Unseen(xs, key, seen)
  {
    var init := xs[..|xs| - 1];
    if i < |xs| - 1 {
      UnseenKeepsFirst(init, key, seen, i);
    } else {
      assert key(xs[i]) !in Keys(init, key);
    }
  }

  /** With distinct keys there are exactly as many keys as elements. */
  lemma {:induction false} DistinctKeysCount<X, K>(xs: seq<X>, key: X -> K)
    requires DistinctKeys(xs, key)
    ensures |Keys(xs, key)| == |xs|
  {
    if |xs| > 0 {
      var init := xs[..|xs| - 1];
      var last := xs[|xs| - 1];
      DistinctKeysCount(init, key);
      assert init + [last] == xs;
      KeysAppend(init, [last], key);
      assert Keys([last], key) == {key(last)};
      assert key(last) !in Keys(init, key);
    }
  }

  /** The left-to-right scan with a seen-set that the program performs: the
      loop keeps `out` equal to the reference filter of the prefix read so
      far and `seenNow` equal to `seen` plus the keys of that prefix. */
  /** The keys filtered out are exactly the ones already seen. */
  lemma UnseenKeys<X, K>(xs: seq<X>, key: X -> K, seen: set<K>)
    ensures seen + Keys(Unseen(xs, key, seen), key) == seen + Keys(xs, key)
  {
    var r := Unseen(xs, key, seen);
    assert Keys(r, key) == Keys(xs, key) - seen;
  }

  /** One more element: its key joins the seen ones, and it is kept exactly
      when that key is new. */
  lemma UnseenStep<X, K>(xs: seq<X>, i: nat, key: X -> K, seen: set<K>)
    requires i < |xs|
    ensures seen + Keys(xs[..i + 1], key) == (seen + Keys(xs[..i], key)) + {key(xs[i])}
    ensures Unseen(xs[..i + 1], key, seen) ==
      if key(xs[i]) in seen + Keys(xs[..i], key) then Unseen(xs[..i], key, seen)
      else Unseen(xs[..i], key, seen) + [xs[i]]
  {
    assert xs[..i + 1][..i] == xs[..i];
    assert Keys(xs[..i + 1], key) == Keys(xs[..i], key) + {key(xs[i])};
  }

  method ScanUnseen<X(==), K(==)>(xs: seq<X>, key: X -> K, seen: set<K>) returns (out: seq<X>, seenNow: set<K>)
    ensures out == Unseen(xs, key, seen)
    ensures seenNow == seen + Keys(xs, key)
    ensures seenNow == seen + Keys(out, key)
  {
    out, seenNow := [], seen;
    var i := 0;
    while i < |xs|
      invariant i <= |xs|
      invariant out == Unseen(xs[..i], key, seen)
      invariant seenNow == seen + Keys(xs[..i], key)
    {
      UnseenStep(xs, i, key, seen);
      if key(xs[i]) !in seenNow {
        out := out + [xs[i]];
      }
      seenNow := seenNow + {key(xs[i])};
      i := i + 1;
    }
    assert xs[..i] == xs;
    assert out == Unseen(xs, key, seen);
    assert seenNow == seen + Keys(xs, key);
    UnseenKeys(xs, key, seen);
  }
}

=== FILE: frame.dfy ===
/** The slice of a pandas DataFrame the pipeline relies on: an ordered list of
    column names and rows mapping column names to cells. */
module Frame {
  import opened Common
  import Dedup

  /** A cell: a missing value (`None`, `NaN` or `NaT`, alike for `isna`;
      they differ only in how `str()` renders them), a string, an integer,
      or a timestamp given as nanoseconds since the epoch (pandas stores
      `datetime64[ns]` values as such integers). */
  datatype Cell = Missing | Str(s: string) | Int(n: int) | Date(ns: int)

  /** A row; a column the row has no entry for reads as `Missing`, the way
      `pd.DataFrame(list_of_dicts)` and `pd.concat` fill absent keys. */
  type Row = map<string, Cell>

  /** Column presence is explicit because several steps branch on
      `"x" in df.columns`. */
  datatype Table = Table(cols: seq<string>, rows: seq<Row>)

  /** The cell of `row` in column `col`. */
  function Get(row: Row, col: string): Cell {
    if col in row then row[col] else Missing
  }

  /** `df[col]` as a list of cells, one per row. */
  function Column(t: Table, col: string): (cells: seq<Cell>)
    ensures |cells| == |t.rows|
    ensures forall i :: 0 <= i < |cells| ==> cells[i] == Get(t.rows[i], col)
  {
    seq(|t.rows|, i requires 0 <= i < |t.rows| => Get(t.rows[i], col))
  }

  /** The column list after assigning `col`: unchanged when `col` is
      already a column, otherwise `col` appended. */
  function WithColumn(cols: seq<string>, col: string): (r: seq<string>)
    ensures col in r
    ensures forall c :: c in r <==> c in cols || c == col
    ensures |cols| <= |r| && r[..|cols|] == cols
  {
    if col in cols then cols else cols + [col]
  }

  /** Every row keeps every column other than `changed`. */
  ghost predicate SameOutside(t: Table, r: Table, changed: string) {
    && |r.rows| == |t.rows|
    && forall i, c :: 0 <= i < |t.rows| && c != changed ==> Get(r.rows[i], c) == Get(t.rows[i], c)
  }

  /** `df[col] = values`: overwrites the column where it exists, otherwise
      appends it after the existing columns. */
  function SetColumn(t: Table, col: string, values: seq<Cell>): (r: Table)
    requires |values| == |t.rows|
    ensures r.cols == WithColumn(t.cols, col)
    ensures Column(r, col) == values
    ensures SameOutside(t, r, col)
  {
    var rows := seq(|t.rows|, i requires 0 <= i < |t.rows| => t.rows[i][col := values[i]]);
    var r := Table(WithColumn(t.cols, col), rows);
    assert Column(r, col) == values;
    r
  }

  /** The `id`-keyed view of a row that `drop_duplicates(subset="id")` compares;
      missing ids compare equal to each other, as pandas treats `NaN`. */
  function KeyOf(col: string): Row -> Cell {
    (row: Row) => Get(row, col)
  }

  /** `df.drop_duplicates(subset=[col])`: keeps the first row of every value
      of `col`, in order; the columns are untouched. */
  function DropDuplicates(t: Table, col: string): (r: Table)
    ensures r.cols == t.cols
    ensures |r.rows| <= |t.rows|
    ensures Dedup.DistinctKeys(r.rows, KeyOf(col))
    ensures Dedup.Keys(r.rows, KeyOf(col)) == Dedup.Keys(t.rows, KeyOf(col))
    ensures forall i :: 0 <= i < |r.rows| ==> r.rows[i] in t.rows
  {
    Table(t.cols, Dedup.KeepFirst(t.rows, KeyOf(col)))
  }

  /** `pd.concat([a, b], ignore_index=True)`: the rows of `a` then those of
      `b`; the columns of `a`, then the columns of `b` that `a` lacks. */
  function Concat(a: Table, b: Table): (r: Table)
    ensures r.rows == a.rows + b.rows
    ensures |a.cols| <= |r.cols| && r.cols[..|a.cols|] == a.cols
    ensures forall c :: c in r.cols <==> c in a.cols || c in b.cols
  {
    Table(a.cols + NewColumns(a.cols, b.cols), a.rows + b.rows)
  }

  /** The columns of `cols` that are not in `known`, in order. */
  function NewColumns(known: seq<string>, cols: seq<string>): (r: seq<string>)
    ensures forall c :: c in r <==> c in cols && c !in known
  {
    if |cols| == 0 then []
    else (if cols[0] in known then [] else [cols[0]]) + NewColumns(known, cols[1..])
  }

  /** The first of `wanted` that `t` lacks, if any. */
  function FirstAbsent(t: Table, wanted: seq<string>): (r: Option<string>)
    ensures r.None? <==> forall i :: 0 <= i < |wanted| ==> wanted[i] in t.cols
    ensures r.Some? ==> r.value in wanted && r.value !in t.cols
  {
    if |wanted| == 0 then None
    else if wanted[0] !in t.cols then Some(wanted[0])
    else FirstAbsent(t, wanted[1..])
  }

  /** `df[wanted]`: exactly the wanted columns, in the wanted order, every row
      restricted to them; `KeyError` (naming an absent column) when one is
      missing. */
  function Select(t: Table, wanted: seq<string>): (r: Result<Table, string>)
    ensures r.Ok? <==> forall i :: 0 <= i < |wanted| ==> wanted[i] in t.cols
    ensures r.Err? ==> r.error in wanted && r.error !in t.cols
    ensures r.Ok? ==> r.value.cols == wanted && |r.value.rows| == |t.rows|
    ensures r.Ok? ==> forall i, c :: 0 <= i < |t.rows| && c in wanted ==> Get(r.value.rows[i], c) == Get(t.rows[i], c)
    ensures r.Ok? ==> forall i :: 0 <= i < |t.rows| ==> r.value.rows[i].Keys <= set c | c in wanted
  {
    match FirstAbsent(t, wanted)
    case Some(c) => Err(c)
    case None =>
      Ok(Table(wanted, seq(|t.rows|, i requires 0 <= i < |t.rows| =>
        map c | c in wanted && c in t.rows[i] :: t.rows[i][c])))
  }
}

=== FILE: reporting.dfy ===
/** `log_quality_report` (utils/reporting.py): missing-value counts per
    column, the count/min/max part of `describe()` for `salary_min`, and the
    oldest/newest `published_date_parsed`, flattened by `pd.json_normalize`
    with `sep="_"` into one row of `(column, value)` pairs. The function only
    reads its table: it is a pure function of it here. */
module Reporting {
  import opened Common
  import opened Frame

  /** A value of the report row: a count, a number, NaN, or the `str()` of a
      timestamp (`"NaT"` when there is none). */
  datatype Value = Count(n: nat) | Number(x: int) | NaN | Shown(text: string)

  /** One nested dictionary of the report, before flattening. */
  datatype Section = Section(name: string, entries: seq<(string, Value)>)

  const Separator: char := '_'
  const MissingSection: string := "missing_values"
  const SalarySection: string := "salary_min_stats"
  const DateSection: string := "date_range"
  const SalaryColumn: string := "salary_min"
  const DateColumn: string := "published_date_parsed"

  // ---------------------------------------------------------------------------
  // Counting missing cells (`df.isna().sum()`)
  // ---------------------------------------------------------------------------

  /** The positions of the missing cells. */
  function MissingPositions(cells: seq<Cell>): set<nat> {
    set i: nat | i < |cells| && cells[i].Missing?
  }

  /** The number of missing cells, counted the way `isna().sum()` does. */
  function CountMissing(cells: seq<Cell>): (n: nat)
    ensures n <= |cells|
    ensures n == |MissingPositions(cells)|
  {
    if |cells| == 0 then 0
    else
      var init := cells[..|cells| - 1];
      var n := CountMissing(init);
      assert MissingPositions(cells) == MissingPositions(init) + (if cells[|cells| - 1].Missing? then {|cells| - 1} else {});
      if cells[|cells| - 1].Missing? then n + 1 else n
  }

  /** `df[col].isna().sum()`. */
  function MissingCount(t: Table, col: string): (n: nat)
    ensures n <= |t.rows|
    ensures n == |set i: nat | i < |t.rows| && Get(t.rows[i], col).Missing?|
  {
    var cells := Column(t, col);
    assert MissingPositions(cells) == set i: nat | i < |t.rows| && Get(t.rows[i], col).Missing?;
    CountMissing(cells)
  }

  // ---------------------------------------------------------------------------
  // Smallest and largest values
  // ---------------------------------------------------------------------------

  function MinOf(xs: seq<int>): (m: int)
    requires |xs| > 0
    ensures m in xs
    ensures forall i :: 0 <= i < |xs| ==> m <= xs[i]
  {
    if |xs| == 1 then xs[0]
    else
      var m := MinOf(xs[1..]);
      if xs[0] <= m then xs[0] else m
  }

  function MaxOf(xs: seq<int>): (m: int)
    requires |xs| > 0
    ensures m in xs
    ensures forall i :: 0 <= i < |xs| ==> xs[i] <= m
  {
    if |xs| == 1 then xs[0]
    else
      var m := MaxOf(xs[1..]);
      if xs[0] >= m then xs[0] else m
  }

  /** The integers of the column, in order (`describe()` skips missing cells). */
  function Numbers(cells: seq<Cell>): (xs: seq<int>)
    ensures forall x :: x in xs <==> Int(x) in cells
    ensures (forall i :: 0 <= i < |cells| ==> cells[i].Missing? || cells[i].Int?) ==> |xs| == |cells| - CountMissing(cells)
  {
    if |cells| == 0 then []
    else
      var init := cells[..|cells| - 1];
      var last := cells[|cells| - 1];
      assert cells == init + [last];
      Numbers(init) + (if last.Int? then [last.n] else [])
  }

  /** The timestamps of the column, in order (`min()`/`max()` skip `NaT`). */
  function Stamps(cells: seq<Cell>): (ts: seq<int>)
    ensures forall x :: x in ts <==> Date(x) in cells
  {
    if |cells| == 0 then []
    else
      var init := cells[..|cells| - 1];
      var last := cells[|cells| - 1];
      assert cells == init + [last];
      Stamps(init) + (if last.Date? then [last.ns] else [])
  }

  /** The oldest and newest timestamp of the column, when it has one. */
  function DateSpan(cells: seq<Cell>): (r: Option<(int, int)>)
    ensures r.None? <==> forall i :: 0 <= i < |cells| ==> !cells[i].Date?
    ensures r.Some? ==> r.value.0 <= r.value.1
    ensures r.Some? ==> Date(r.value.0) in cells && Date(r.value.1) in cells
    ensures r.Some? ==> forall i :: 0 <= i < |cells| && cells[i].Date? ==> r.value.0 <= cells[i].ns <= r.value.1
  {
    var ts := Stamps(cells);
    if |ts| == 0 then
      assert forall i :: 0 <= i < |cells| && cells[i].Date? ==> cells[i].ns in ts;
      None
    else
      assert forall i :: 0 <= i < |cells| && cells[i].Date? ==> cells[i].ns in ts;
      Some((MinOf(ts), MaxOf(ts)))
  }

  // ---------------------------------------------------------------------------
  // The sections
  // ---------------------------------------------------------------------------

  /** `df.isna().sum().to_dict()`: one entry per column, in column order. */
  function MissingValues(t: Table): (s: Section)
    ensures s.name == MissingSection && |s.entries| == |t.cols|
    ensures forall i :: 0 <= i < |t.cols| ==> s.entries[i] == (t.cols[i], Count(MissingCount(t, t.cols[i])))
  {
    Section(MissingSection, seq(|t.cols|, i requires 0 <= i < |t.cols| => (t.cols[i], Count(MissingCount(t, t.cols[i])))))
  }

  /** The column holds only integers and missing cells: `describe()` takes its
      numeric branch. */
  predicate IsNumeric(cells: seq<Cell>) {
    forall i :: 0 <= i < |cells| ==> cells[i].Missing? || cells[i].Int?
  }

  /** `df["salary_min"].describe().to_dict()`, reduced to count, min and max.
      `count` is the number of non-missing cells; on a numeric column `min`
      and `max` follow, NaN when nothing is counted. */
  function SalaryStats(t: Table): (s: Section)
    ensures s.name == SalarySection && |s.entries| > 0
    ensures s.entries[0] == ("count", Count(|t.rows| - MissingCount(t, SalaryColumn)))
    ensures var cells := Column(t, SalaryColumn);
      IsNumeric(cells) ==>
        && |s.entries| == 3 && s.entries[1].0 == "min" && s.entries[2].0 == "max"
        && (MissingCount(t, SalaryColumn) == |t.rows| ==> s.entries[1].1 == NaN && s.entries[2].1 == NaN)
        && (MissingCount(t, SalaryColumn) < |t.rows| ==>
              && s.entries[1].1.Number? && s.entries[2].1.Number?
              && s.entries[1].1.x <= s.entries[2].1.x
              && Int(s.entries[1].1.x) in cells && Int(s.entries[2].1.x) in cells
              && forall i :: 0 <= i < |cells| && cells[i].Int? ==>
                   s.entries[1].1.x <= cells[i].n <= s.entries[2].1.x)
  {
    var cells := Column(t, SalaryColumn);
    var count := Count(|cells| - CountMissing(cells));
    if !IsNumeric(cells) then Section(SalarySection, [("count", count)])
    else
      var xs := Numbers(cells);
      assert forall i :: 0 <= i < |cells| && cells[i].Int? ==> cells[i].n in xs;
      if |xs| == 0 then Section(SalarySection, [("count", count), ("min", NaN), ("max", NaN)])
      else Section(SalarySection, [("count", count), ("min", Number(MinOf(xs))), ("max", Number(MaxOf(xs)))])
  }

  /** `{"oldest": str(min), "newest": str(max)}` over `published_date_parsed`;
      `render` is `str()` of a timestamp, and an all-`NaT` column gives `"NaT"`
      for both. */
  function DateRange(t: Table, render: int -> string): (s: Section)
    ensures s.name == DateSection && |s.entries| == 2
    ensures s.entries[0].0 == "oldest" && s.entries[1].0 == "newest"
    ensures DateSpan(Column(t, DateColumn)).None? ==> s.entries[0].1 == Shown("NaT") && s.entries[1].1 == Shown("NaT")
    ensures DateSpan(Column(t, DateColumn)).Some? ==>
      var (lo, hi) := DateSpan(Column(t, DateColumn)).value;
      s.entries[0].1 == Shown(render(lo)) && s.entries[1].1 == Shown(render(hi))
  {
    match DateSpan(Column(t, DateColumn))
    case None => Section(DateSection, [("oldest", Shown("NaT")), ("newest", Shown("NaT"))])
    case Some((lo, hi)) => Section(DateSection, [("oldest", Shown(render(lo))), ("newest", Shown(render(hi)))])
  }

  // ---------------------------------------------------------------------------
  // Flattening (`pd.json_normalize(report, sep="_")`)
  // ---------------------------------------------------------------------------

  /** The entries of one section with `name + "_"` in front of every key. */
  function Prefixed(s: Section): (r: seq<(string, Value)>)
    ensures |r| == |s.entries|
    ensures forall i :: 0 <= i < |r| ==> r[i] == (s.name + [Separator] + s.entries[i].0, s.entries[i].1)
  {
    seq(|s.entries|, i requires 0 <= i < |s.entries| => (s.name + [Separator] + s.entries[i].0, s.entries[i].1))
  }

  /** The flattened row: the sections' prefixed entries, section by section. */
  function Flatten(sections: seq<Section>): seq<(string, Value)> {
    if |sections| == 0 then [] else Prefixed(sections[0]) + Flatten(sections[1..])
  }

  /** Flattening distributes over concatenating the list of sections. */
  lemma {:induction false} FlattenAppend(a: seq<Section>, b: seq<Section>)
    ensures Flatten(a + b) == Flatten(a) + Flatten(b)
  {
    if |a| == 0 {
      assert a + b == b;
    } else {
      assert (a + b)[0] == a[0];
      assert (a + b)[1..] == a[1..] + b;
      FlattenAppend(a[1..], b);
    }
  }

  /** The nested report in the order the source builds it. */
  function Sections(t: Table, render: int -> string): seq<Section> {
    [MissingValues(t)]
    + (if SalaryColumn in t.cols then [SalaryStats(t)] else [])
    + (if DateColumn in t.cols then [DateRange(t, render)] else [])
  }

  /** The report row `log_quality_report` writes. */
  function QualityReport(t: Table, render: int -> string): seq<(string, Value)> {
    Flatten(Sections(t, render))
  }

  predicate HasKey(r: seq<(string, Value)>, key: string) {
    exists i :: 0 <= i < |r| && r[i].0 == key
  }

  /** The flattened salary entries, present only with a `salary_min` column. */
  function SalaryPart(t: Table): seq<(string, Value)> {
    if SalaryColumn in t.cols then Prefixed(SalaryStats(t)) else []
  }

  /** The flattened date entries, present only with a `published_date_parsed` column. */
  function DatePart(t: Table, render: int -> string): seq<(string, Value)> {
    if DateColumn in t.cols then Prefixed(DateRange(t, render)) else []
  }

  /** The report is the three flattened sections one after the other. */
  lemma ReportLayout(t: Table, render: int -> string)
    ensures QualityReport(t, render) == Prefixed(MissingValues(t)) + SalaryPart(t) + DatePart(t, render)
  {
    var ss := Sections(t, render);
    var sal := if SalaryColumn in t.cols then [SalaryStats(t)] else [];
    var dat := if DateColumn in t.cols then [DateRange(t, render)] else [];
    assert ss == [MissingValues(t)] + (sal + dat);
    assert ss[0] == MissingValues(t) && ss[1..] == sal + dat;
    FlattenAppend(sal, dat);
    assert Flatten(sal) == SalaryPart(t) by {
      if SalaryColumn in t.cols { assert Flatten(sal) == Prefixed(SalaryStats(t)) + Flatten([]); }
    }
    assert Flatten(dat) == DatePart(t, render) by {
      if DateColumn in t.cols { assert Flatten(dat) == Prefixed(DateRange(t, render)) + Flatten([]); }
    }
  }

  /** `missing_values_<col>` for every column, in column order, holding that
      column's missing count. */
  lemma ReportMissingValues(t: Table, render: int -> string)
    ensures var r := QualityReport(t, render);
      && |t.cols| <= |r|
      && forall i :: 0 <= i < |t.cols| ==>
           r[i] == ("missing_values_" + t.cols[i], Count(MissingCount(t, t.cols[i])))
  {
    ReportLayout(t, render);
    var r := QualityReport(t, render);
    var mv := Prefixed(MissingValues(t));
    forall i | 0 <= i < |t.cols|
      ensures r[i] == ("missing_values_" + t.cols[i], Count(MissingCount(t, t.cols[i])))
    {
      assert r[i] == mv[i];
      assert MissingSection + [Separator] + t.cols[i] == "missing_values_" + t.cols[i];
    }
  }

  /** `salary_min_stats_count` is there exactly when `salary_min` is, right
      after the missing counts, holding the number of non-missing salaries. */
  lemma ReportSalaryCount(t: Table, render: int -> string)
    ensures var r := QualityReport(t, render);
      && (HasKey(r, "salary_min_stats_count") <==> SalaryColumn in t.cols)
      && (SalaryColumn in t.cols ==>
            && |t.cols| < |r|
            && r[|t.cols|] == ("salary_min_stats_count", Count(|t.rows| - MissingCount(t, SalaryColumn))))
  {
    ReportLayout(t, render);
    var r := QualityReport(t, render);
    var mv := Prefixed(MissingValues(t));
    var sp := SalaryPart(t);
    var dp := DatePart(t, render);
    var key := "salary_min_stats_count";
    if SalaryColumn in t.cols {
      var st := SalaryStats(t);
      assert sp[0] == (SalarySection + [Separator] + st.entries[0].0, st.entries[0].1);
      assert SalarySection + [Separator] + "count" == key;
      assert r[|t.cols|] == sp[0];
    } else {
      assert r == mv + dp;
      forall i | 0 <= i < |r| ensures r[i].0 != key {
        if i < |mv| {
          assert r[i].0[0] == 'm';
        } else {
          assert r[i] == dp[i - |mv|];
          assert r[i].0[0] == 'd';
        }
      }
    }
  }

  /** `date_range_oldest` and `date_range_newest` are there exactly when
      `published_date_parsed` is, at the end of the row, holding the rendered
      oldest and newest timestamps, or `"NaT"` for both when there is none. */
  lemma ReportDateRange(t: Table, render: int -> string)
    ensures var r := QualityReport(t, render);
      && (HasKey(r, "date_range_oldest") <==> DateColumn in t.cols)
      && (HasKey(r, "date_range_newest") <==> DateColumn in t.cols)
      && (DateColumn in t.cols ==> |r| >= 2 && r[|r| - 2].0 == "date_range_oldest" && r[|r| - 1].0 == "date_range_newest")
      && (DateColumn in t.cols ==>
            var span := DateSpan(Column(t, DateColumn));
            && (span.None? ==> r[|r| - 2].1 == Shown("NaT") && r[|r| - 1].1 == Shown("NaT"))
            && (span.Some? ==> r[|r| - 2].1 == Shown(render(span.value.0)) && r[|r| - 1].1 == Shown(render(span.value.1))))
  {
    ReportLayout(t, render);
    var r := QualityReport(t, render);
    var mv := Prefixed(MissingValues(t));
    var sp := SalaryPart(t);
    var dp := DatePart(t, render);
    if DateColumn in t.cols {
      var dr := DateRange(t, render);
      assert dp[0].0 == DateSection + [Separator] + dr.entries[0].0;
      assert dp[1].0 == DateSection + [Separator] + dr.entries[1].0;
      assert DateSection + [Separator] + "oldest" == "date_range_oldest";
      assert DateSection + [Separator] + "newest" == "date_range_newest";
      assert r[|r| - 2] == dp[0] && r[|r| - 1] == dp[1];
    } else {
      assert r == mv + sp;
      forall i | 0 <= i < |r| ensures r[i].0[0] != 'd' {
        if i < |mv| {
          assert r[i].0[0] == 'm';
        } else {
          assert r[i] == sp[i - |mv|];
          assert r[i].0[0] == 's';
        }
      }
      assert "date_range_oldest"[0] == 'd' && "date_range_newest"[0] == 'd';
    }
  }

  /** A table with `id`, `salary_min` and `published_date_parsed` columns
      reports a missing-value count for `id`, a salary count and the oldest
      date, whatever its rows. */
  lemma SampleReportKeys(t: Table, render: int -> string)
    requires t.cols == ["id", SalaryColumn, DateColumn]
    ensures var r := QualityReport(t, render);
      && HasKey(r, "missing_values_id")
      && HasKey(r, "salary_min_stats_count")
      && HasKey(r, "date_range_oldest")
  {
    var r := QualityReport(t, render);
    ReportMissingValues(t, render);
    assert r[0].0 == "missing_values_" + t.cols[0];
    assert t.cols[0] == "id";
    assert r[0].0 == "missing_values_id";
    ReportSalaryCount(t, render);
    assert SalaryColumn in t.cols by { assert t.cols[1] == SalaryColumn; }
    ReportDateRange(t, render);
    assert DateColumn in t.cols by { assert t.cols[2] == DateColumn; }
  }
}

=== FILE: salary.dfy ===
/** `extract_salaries` (data_processing.py): a `re.search` for
    `SGD\s*([\d,]+)\s*[–-]\s*([\d,]+)` followed by `int(...)` of each group
    with the commas removed.

    The three character classes of the pattern (whitespace, digit-or-comma,
    dash) are pairwise disjoint, so at a given start the backtracking matcher
    has exactly one way to succeed, and a greedy scan without backtracking
    finds it. `Matches` below states the pattern declaratively; `MatchAt` is
    the scan; `MatchAtComplete` and `SearchIsLeftmost` tie the two together. */
module Salary {
  import opened Common
  import opened Text
  import opened Frame

  const Currency: string := "SGD"

  /** The currency code starts at position `i` of `s`. */
  predicate CurrencyAt(s: string, i: nat) {
    i + 3 <= |s| && s[i] == Currency[0] && s[i + 1] == Currency[1] && s[i + 2] == Currency[2]
  }

  /** The class `[\d,]`. */
  predicate IsNumChar(c: char) {
    IsDigit(c) || c == ','
  }

  /** The class `[–-]`: an en dash or an ASCII hyphen. */
  predicate IsDash(c: char) {
    c == '\U{2013}' || c == '-'
  }

  /** A match object: where the match starts, the spans of the two groups and
      the position of the dash. */
  datatype Match = Match(start: nat, g1: nat, g1End: nat, dash: nat, g2: nat, g2End: nat)

  /** The pattern matches `s[m.start..m.g2End]` with the pieces laid out as
      `m` says: `SGD`, spaces, group 1, spaces, a dash, spaces, group 2. */
  predicate Matches(s: string, m: Match) {
    && m.start + 3 <= m.g1 < m.g1End <= m.dash < m.g2 < m.g2End <= |s|
    && CurrencyAt(s, m.start)
    && (forall k :: m.start + 3 <= k < m.g1 ==> IsSpace(s[k]))
    && (forall k :: m.g1 <= k < m.g1End ==> IsNumChar(s[k]))
    && (forall k :: m.g1End <= k < m.dash ==> IsSpace(s[k]))
    && IsDash(s[m.dash])
    && (forall k :: m.dash + 1 <= k < m.g2 ==> IsSpace(s[k]))
    && (forall k :: m.g2 <= k < m.g2End ==> IsNumChar(s[k]))
  }

  /** The final `[\d,]+` is greedy: it stops only where no digit or comma follows. */
  predicate Greedy(s: string, m: Match) {
    m.g2End < |s| ==> !IsNumChar(s[m.g2End])
  }

  /** The match `re.search` reports: a greedy match that starts no later than
      any other match. */
  ghost predicate IsSearchResult(s: string, m: Match) {
    Matches(s, m) && Greedy(s, m) && forall m' :: Matches(s, m') ==> m.start <= m'.start
  }

  /** The end of the run of whitespace starting at `i` (`\s*`). */
  function SkipSpaces(s: string, i: nat): (j: nat)
    requires i <= |s|
    ensures i <= j <= |s|
    ensures j == |s| || !IsSpace(s[j])
    decreases |s| - i
  {
    if i < |s| && IsSpace(s[i]) then SkipSpaces(s, i + 1) else i
  }

  /** The end of the run of digits and commas starting at `i` (`[\d,]*`). */
  function SkipNumber(s: string, i: nat): (j: nat)
    requires i <= |s|
    ensures i <= j <= |s|
    ensures j == |s| || !IsNumChar(s[j])
    decreases |s| - i
  {
    if i < |s| && IsNumChar(s[i]) then SkipNumber(s, i + 1) else i
  }

  /** Everything `\s*` consumed from `i` is whitespace. */
  lemma {:induction false} SkipSpacesRun(s: string, i: nat)
    requires i <= |s|
    ensures forall k :: i <= k < SkipSpaces(s, i) ==> IsSpace(s[k])
    decreases |s| - i
  {
    if i < |s| && IsSpace(s[i]) {
      SkipSpacesRun(s, i + 1);
    }
  }

  /** Everything `[\d,]*` consumed from `i` is a digit or a comma. */
  lemma {:induction false} SkipNumberRun(s: string, i: nat)
    requires i <= |s|
    ensures forall k :: i <= k < SkipNumber(s, i) ==> IsNumChar(s[k])
    decreases |s| - i
  {
    if i < |s| && IsNumChar(s[i]) {
      SkipNumberRun(s, i + 1);
    }
  }

  /** The anchored attempt at position `i`. */
  function MatchAt(s: string, i: nat): (r: Option<Match>)
    requires i <= |s|
    ensures r.Some? ==> r.value.start == i
  {
    if CurrencyAt(s, i) then
      var g1 := SkipSpaces(s, i + 3);
      var g1End := SkipNumber(s, g1);
      var dash := SkipSpaces(s, g1End);
      if g1End == g1 || dash == |s| || !IsDash(s[dash]) then None
      else
        var g2 := SkipSpaces(s, dash + 1);
        var g2End := SkipNumber(s, g2);
        if g2End == g2 then None else Some(Match(i, g1, g1End, dash, g2, g2End))
    else None
  }

  /** A layout the scans produce is a greedy match of the pattern. */
  lemma ScannedLayoutMatches(s: string, m: Match)
    requires m.start + 3 <= |s| && CurrencyAt(s, m.start)
    requires m.g1 == SkipSpaces(s, m.start + 3) && m.g1End == SkipNumber(s, m.g1) && m.g1 < m.g1End
    requires m.dash == SkipSpaces(s, m.g1End) && m.dash < |s| && IsDash(s[m.dash])
    requires m.g2 == SkipSpaces(s, m.dash + 1) && m.g2End == SkipNumber(s, m.g2) && m.g2 < m.g2End
    ensures Matches(s, m) && Greedy(s, m)
  {
    SkipSpacesRun(s, m.start + 3);
    SkipNumberRun(s, m.g1);
    SkipSpacesRun(s, m.g1End);
    SkipSpacesRun(s, m.dash + 1);
    SkipNumberRun(s, m.g2);
  }

  /** Every match the anchored attempt reports is a greedy match of the
      pattern. */
  lemma MatchAtSound(s: string, i: nat)
    requires i <= |s|
    ensures var r := MatchAt(s, i); r.Some? ==> Matches(s, r.value) && Greedy(s, r.value)
  {
    var r := MatchAt(s, i);
    if r.Some? {
      ScannedLayoutMatches(s, r.value);
    }
  }

  /** `\s*` from `i` stops exactly at the end of a run of whitespace. */
  lemma SkipSpacesTo(s: string, i: nat, j: nat)
    requires i <= j <= |s|
    requires forall k :: i <= k < j ==> IsSpace(s[k])
    requires j == |s| || !IsSpace(s[j])
    ensures SkipSpaces(s, i) == j
  {
    SkipSpacesRun(s, i);
  }

  /** `[\d,]*` from `i` runs at least to the end of a run of digits and commas. */
  lemma SkipNumberPast(s: string, i: nat, j: nat)
    requires i <= j <= |s|
    requires forall k :: i <= k < j ==> IsNumChar(s[k])
    ensures SkipNumber(s, i) >= j
  {
    SkipNumberRun(s, i);
  }

  /** The scans of the anchored attempt retrace any match's layout up to
      the dash. */
  lemma ScansFollowFirstGroup(s: string, m: Match)
    requires Matches(s, m)
    ensures SkipSpaces(s, m.start + 3) == m.g1
    ensures SkipNumber(s, m.g1) == m.g1End
    ensures SkipSpaces(s, m.g1End) == m.dash
  {
    assert !IsSpace(s[m.g1]);
    SkipSpacesTo(s, m.start + 3, m.g1);
    SkipNumberPast(s, m.g1, m.g1End);
    var g1End := SkipNumber(s, m.g1);
    SkipNumberRun(s, m.g1);
    assert g1End > m.g1End ==> IsNumChar(s[m.g1End]);
    SkipSpacesTo(s, m.g1End, m.dash);
  }

  /** ... and after it. */
  lemma ScansFollowSecondGroup(s: string, m: Match)
    requires Matches(s, m)
    ensures SkipSpaces(s, m.dash + 1) == m.g2
    ensures SkipNumber(s, m.g2) >= m.g2End
  {
    assert !IsSpace(s[m.g2]);
    SkipSpacesTo(s, m.dash + 1, m.g2);
    SkipNumberPast(s, m.g2, m.g2End);
  }

  /** Any way the pattern matches at a start is found by the anchored attempt
      there, with the same layout up to the second group, whose greedy end
      is at least as far. */
  lemma MatchAtComplete(s: string, m: Match)
    requires Matches(s, m)
    ensures MatchAt(s, m.start).Some?
    ensures var f := MatchAt(s, m.start).value;
      f.g1 == m.g1 && f.g1End == m.g1End && f.dash == m.dash && f.g2 == m.g2 && f.g2End >= m.g2End
  {
    ScansFollowFirstGroup(s, m);
    ScansFollowSecondGroup(s, m);
  }

  /** `re.search` from position `i` on: the anchored attempts tried left to right. */
  function SearchFrom(s: string, i: nat): (r: Option<Match>)
    requires i <= |s|
    ensures r.Some? ==> i <= r.value.start <= |s| && MatchAt(s, r.value.start) == r
    decreases |s| - i
  {
    var here := MatchAt(s, i);
    if here.Some? then here
    else if i == |s| then None
    else SearchFrom(s, i + 1)
  }

  /** The scan tries every start from `i` on, in order: no position before
      the one it reports starts a match. */
  lemma {:induction false} SearchFromNoEarlier(s: string, i: nat)
    requires i <= |s|
    ensures var r := SearchFrom(s, i);
      r.Some? ==> forall j :: i <= j < r.value.start ==> MatchAt(s, j).None?
    decreases |s| - i
  {
    if MatchAt(s, i).None? && i < |s| {
      SearchFromNoEarlier(s, i + 1);
    }
  }

  /** When the scan reports nothing, no position from `i` on starts a match. */
  lemma {:induction false} SearchFromNone(s: string, i: nat)
    requires i <= |s|
    ensures SearchFrom(s, i).None? ==> forall j :: i <= j <= |s| ==> MatchAt(s, j).None?
    decreases |s| - i
  {
    if MatchAt(s, i).None? && i < |s| {
      SearchFromNone(s, i + 1);
    }
  }

  function Search(s: string): Option<Match> {
    SearchFrom(s, 0)
  }

  /** The scan is `re.search`: it fails exactly when the pattern matches
      nowhere, and otherwise reports the leftmost greedy match. */
  lemma SearchIsLeftmost(s: string)
    ensures Search(s).None? <==> forall m :: !Matches(s, m)
    ensures Search(s).Some? ==> IsSearchResult(s, Search(s).value)
  {
    SearchFromNoEarlier(s, 0);
    SearchFromNone(s, 0);
    var r := Search(s);
    if r.Some? {
      MatchAtSound(s, r.value.start);
    }
    forall m | Matches(s, m) ensures Search(s).Some? && Search(s).value.start <= m.start {
      MatchAtComplete(s, m);
    }
  }

  /** A greedy match is determined by where it starts. */
  lemma GreedyMatchUnique(s: string, m: Match, m': Match)
    requires Matches(s, m) && Greedy(s, m) && Matches(s, m') && Greedy(s, m')
    requires m.start == m'.start
    ensures m == m'
  {
    MatchAtComplete(s, m);
    MatchAtComplete(s, m');
  }

  /** A string laid out as the pattern's pieces matches at the start, with
      the two groups as written. */
  lemma PartsMatch(sp0: string, g1: string, sp1: string, d: char, sp2: string, g2: string, rest: string)
    requires AllSpace(sp0) && AllSpace(sp1) && AllSpace(sp2)
    requires |g1| > 0 && forall k :: 0 <= k < |g1| ==> IsNumChar(g1[k])
    requires |g2| > 0 && forall k :: 0 <= k < |g2| ==> IsNumChar(g2[k])
    requires IsDash(d)
    ensures var s := Currency + sp0 + g1 + sp1 + [d] + sp2 + g2 + rest;
      var a := 3 + |sp0|;
      var b := a + |g1|;
      var c := b + |sp1|;
      var e := c + 1 + |sp2|;
      Matches(s, Match(0, a, b, c, e, e + |g2|))
  {
    var s := Currency + sp0 + g1 + sp1 + [d] + sp2 + g2 + rest;
    var a := 3 + |sp0|;
    var b := a + |g1|;
    var c := b + |sp1|;
    assert s[0] == Currency[0] && s[1] == Currency[1] && s[2] == Currency[2];
    assert s[c] == d;
  }

  lemma PartsGroups(sp0: string, g1: string, sp1: string, d: char, sp2: string, g2: string, rest: string)
    ensures var s := Currency + sp0 + g1 + sp1 + [d] + sp2 + g2 + rest;
      var a := 3 + |sp0|;
      var b := a + |g1|;
      var c := b + |sp1|;
      var e := c + 1 + |sp2|;
      && s[a..b] == g1 && s[e..e + |g2|] == g2
      && (|rest| > 0 ==> s[e + |g2|] == rest[0])
  {
    var s := Currency + sp0 + g1 + sp1 + [d] + sp2 + g2 + rest;
    var a := 3 + |sp0|;
    var b := a + |g1|;
    var c := b + |sp1|;
    var e := c + 1 + |sp2|;
    assert s[a..b] == g1;
    assert s[e..e + |g2|] == g2;
  }

  /** A string laid out as the pattern's pieces matches at the start, with
      the two groups as written. */
  lemma MatchOfParts(sp0: string, g1: string, sp1: string, d: char, sp2: string, g2: string, rest: string)
    requires AllSpace(sp0) && AllSpace(sp1) && AllSpace(sp2)
    requires |g1| > 0 && forall k :: 0 <= k < |g1| ==> IsNumChar(g1[k])
    requires |g2| > 0 && forall k :: 0 <= k < |g2| ==> IsNumChar(g2[k])
    requires IsDash(d)
    requires rest == [] || !IsNumChar(rest[0])
    ensures var s := Currency + sp0 + g1 + sp1 + [d] + sp2 + g2 + rest;
      var a := 3 + |sp0|;
      var b := a + |g1|;
      var c := b + |sp1|;
      var e := c + 1 + |sp2|;
      var m := Match(0, a, b, c, e, e + |g2|);
      && IsSearchResult(s, m)
      && s[m.g1..m.g1End] == g1 && s[m.g2..m.g2End] == g2
  {
    PartsMatch(sp0, g1, sp1, d, sp2, g2, rest);
    PartsGroups(sp0, g1, sp1, d, sp2, g2, rest);
  }

  /** What `extract_salaries` returns, or the exception it raises. */
  datatype Salary =
    | NoSalary                    // (None, None)
    | Range(min: nat, max: nat)   // (min_salary, max_salary)
    | ValueError                  // int("") on a group made only of commas

  /** Removing the commas from digits and commas leaves digits only. */
  lemma {:induction false} CommasRemoved(g: string)
    requires forall k :: 0 <= k < |g| ==> IsNumChar(g[k])
    ensures AllDigits(RemoveChar(g, ','))
  {
    if |g| > 0 {
      CommasRemoved(g[1..]);
    }
  }

  /** `int(group.replace(",", ""))` for both groups, the first group first. */
  function GroupsValue(a: string, b: string): (r: Salary)
    requires forall k :: 0 <= k < |a| ==> IsNumChar(a[k])
    requires forall k :: 0 <= k < |b| ==> IsNumChar(b[k])
    ensures r != NoSalary
    ensures r == ValueError <==> (forall k :: 0 <= k < |a| ==> a[k] == ',') || (forall k :: 0 <= k < |b| ==> b[k] == ',')
  {
    var da := RemoveChar(a, ',');
    var db := RemoveChar(b, ',');
    if da == [] || db == [] then ValueError
    else
      CommasRemoved(a);
      CommasRemoved(b);
      Range(DigitsValue(da), DigitsValue(db))
  }

  /** The numbers are the groups read as decimals, commas ignored: two
      groups that become the renderings of `n` and `m` once their commas go,
      wherever the commas stood, give the range from `n` to `m`. */
  lemma GroupsValueOfRendered(a: string, b: string, n: nat, m: nat)
    requires forall k :: 0 <= k < |a| ==> IsNumChar(a[k])
    requires forall k :: 0 <= k < |b| ==> IsNumChar(b[k])
    requires RemoveChar(a, ',') == NatText(n) && RemoveChar(b, ',') == NatText(m)
    ensures GroupsValue(a, b) == Range(n, m)
  {
    DigitsOfNatText(n);
    DigitsOfNatText(m);
  }

  /** `extract_salaries(compensation)`. */
  function ExtractSalaries(compensation: Cell): (r: Salary)
    ensures !compensation.Str? ==> r == NoSalary
    ensures compensation.Str? ==> (r == NoSalary <==> forall m :: !Matches(compensation.s, m))
  {
    if !compensation.Str? then NoSalary
    else
      var s := compensation.s;
      SearchIsLeftmost(s);
      match Search(s)
      case None => NoSalary
      case Some(m) =>
        NumSlice(s, m.g1, m.g1End);
        NumSlice(s, m.g2, m.g2End);
        GroupsValue(s[m.g1..m.g1End], s[m.g2..m.g2End])
  }

  /** A run of digits and commas read out as a group. */
  lemma NumSlice(s: string, a: nat, b: nat)
    requires a <= b <= |s|
    requires forall k :: a <= k < b ==> IsNumChar(s[k])
    ensures forall k :: 0 <= k < |s[a..b]| ==> IsNumChar(s[a..b][k])
  {
  }

  /** The result in terms of the pattern alone: the groups of the match
      `re.search` reports decide the pair, with no check that min <= max. */
  lemma ExtractSalariesOfMatch(s: string, m: Match)
    requires IsSearchResult(s, m)
    ensures ExtractSalaries(Str(s)) == GroupsValue(s[m.g1..m.g1End], s[m.g2..m.g2End])
  {
    SearchIsLeftmost(s);
    var f := Search(s).value;
    assert f.start <= m.start;
    MatchAtComplete(s, m);
    assert MatchAt(s, m.start).Some?;
    assert f.start == m.start;
    GreedyMatchUnique(s, f, m);
  }
}

/** The docstring's example and some edge cases of the pattern, derived
    from the pattern-level statement of `extract_salaries`. */
module SalaryExamples {
  import opened Text
  import opened Frame
  import opened Salary

  lemma DigitsExample()
    ensures DigitsValue("4000") == 4000 && DigitsValue("8000") == 8000
  {
    assert "4000"[..3] == "400" && "400"[..2] == "40" && "40"[..1] == "4";
    assert "8000"[..3] == "800" && "800"[..2] == "80" && "80"[..1] == "8";
  }

  lemma GroupsExample()
    ensures GroupsValue("4,000", "8,000") == Range(4000, 8000)
    ensures GroupsValue("8,000", "4,000") == Range(8000, 4000)
  {
    assert RemoveChar("4,000", ',') == "4000";
    assert RemoveChar("8,000", ',') == "8000";
    DigitsExample();
  }

  lemma DocstringMatch(s: string)
    requires s == "SGD 4,000 \U{2013} 8,000 with equity"
    ensures IsSearchResult(s, Match(0, 4, 9, 10, 12, 17))
    ensures s[4..9] == "4,000" && s[12..17] == "8,000"
  {
    assert s == Currency + " " + "4,000" + " " + ['\U{2013}'] + " " + "8,000" + " with equity";
    MatchOfParts(" ", "4,000", " ", '\U{2013}', " ", "8,000", " with equity");
  }

  /** The docstring's example: `'SGD 4,000 – 8,000 with equity'` gives `(4000, 8000)`. */
  lemma DocstringExample(s: string)
    requires s == "SGD 4,000 \U{2013} 8,000 with equity"
    ensures ExtractSalaries(Str(s)) == Range(4000, 8000)
  {
    DocstringMatch(s);
    ExtractSalariesOfMatch(s, Match(0, 4, 9, 10, 12, 17));
    GroupsExample();
  }

  lemma ReversedMatch(s: string)
    requires s == "SGD 8,000 - 4,000"
    ensures IsSearchResult(s, Match(0, 4, 9, 10, 12, 17))
    ensures s[4..9] == "8,000" && s[12..17] == "4,000"
  {
    assert s == Currency + " " + "8,000" + " " + ['-'] + " " + "4,000" + "";
    MatchOfParts(" ", "8,000", " ", '-', " ", "4,000", "");
  }

  /** The order of the two numbers is not checked: `(8000, 4000)`. */
  lemma ReversedRangeKept(s: string)
    requires s == "SGD 8,000 - 4,000"
    ensures ExtractSalaries(Str(s)) == Range(8000, 4000)
  {
    ReversedMatch(s);
    ExtractSalariesOfMatch(s, Match(0, 4, 9, 10, 12, 17));
    GroupsExample();
  }

  /** A group made only of commas reaches `int("")`, which raises. */
  lemma CommaOnlyGroupRaises(s: string)
    requires s == "SGD , - 5"
    ensures ExtractSalaries(Str(s)) == ValueError
  {
    var m := Match(0, 4, 5, 6, 8, 9);
    assert IsSearchResult(s, m);
    assert s[m.g1..m.g1End] == ",";
    ExtractSalariesOfMatch(s, m);
  }

  /** No currency token, no match: `(None, None)`. */
  lemma NoCurrencyNoSalary(s: string)
    requires s == "Competitive"
    ensures ExtractSalaries(Str(s)) == NoSalary
  {
    assert forall k :: 0 <= k < |s| ==> s[k] != 'S';
    assert forall i: nat :: !CurrencyAt(s, i);
  }

  /** A single number is not a range: `(None, None)`. */
  lemma SingleNumberNoSalary(s: string)
    requires s == "SGD 5000"
    ensures ExtractSalaries(Str(s)) == NoSalary
  {
    assert forall k :: 0 <= k < |s| ==> !IsDash(s[k]);
  }
}

=== FILE: scraper.dfy ===
/** The scraper's data path: one job card becomes one job record (or
    nothing), the records of every card seen are accumulated first-seen-wins
    by id, scrolling stops once the page has not grown for two rounds, and
    the result is upserted into the existing master table. The browser is
    not modelled: a card is the outcome of the element look-ups the scraper
    makes on it, and a scroll round is the page height and the cards the
    browser reports after it. */
module Scraper {
  import opened Common
  import opened Text
  import opened Frame
  import Dedup

  // ---------------------------------------------------------------------------
  // Job cards and job records
  // ---------------------------------------------------------------------------

  /** The title anchor of a card: its visible text and its `href`
      attribute, which the browser may report as absent. */
  datatype TitleLink = TitleLink(text: string, href: Option<string>)

  /** The avatar image: its `src` and `data-src` attributes. */
  datatype Avatar = Avatar(src: Option<string>, dataSrc: Option<string>)

  /** What the element look-ups find on one card; `None` is an element the
      card lacks. `metadata` holds the texts of the `<li>` items of the
      metadata list. */
  datatype Card = Card(
    title: Option<TitleLink>,
    company: Option<string>,
    location: Option<string>,
    avatar: Option<Avatar>,
    compensation: Option<string>,
    published: Option<string>,
    metadata: Option<seq<string>>)

  /** One scraped job, with the nine fields of the scraper's dict. */
  datatype Job = Job(
    id: string,
    title: string,
    company: string,
    location: string,
    link: string,
    imageUrl: string,
    compensation: string,
    publishedDate: string,
    metadata: string)

  /** The id of a job: the scraper's primary key. */
  function IdOf(j: Job): string {
    j.id
  }

  // ---------------------------------------------------------------------------
  // The id of a job link
  // ---------------------------------------------------------------------------

  predicate AllSlashes(s: string) {
    forall k :: 0 <= k < |s| ==> s[k] == '/'
  }

  /** `s.rstrip("/")`. */
  function RStripSlash(s: string): (r: string)
    ensures |r| <= |s| && r == s[..|r|]
    ensures AllSlashes(s[|r|..])
    ensures r == [] || r[|r| - 1] != '/'
  {
    if |s| > 0 && s[|s| - 1] == '/' then
      var p := s[..|s| - 1];
      var r := RStripSlash(p);
      assert s[..|r|] == p[..|r|];
      assert s[|r|..] == p[|r|..] + ['/'];
      r
    else s
  }

  /** `s.rsplit("/", 1)[-1]`: the text after the last slash, or all of `s`
      when it has none. */
  function LastSegment(s: string): (r: string)
    ensures |r| <= |s| && r == s[|s| - |r|..]
    ensures '/' !in r
    ensures |r| < |s| ==> s[|s| - |r| - 1] == '/'
  {
    if |s| == 0 then []
    else if s[|s| - 1] == '/' then []
    else
      var r := LastSegment(s[..|s| - 1]) + [s[|s| - 1]];
      assert s[..|s| - 1][|s| - |r|..] + [s[|s| - 1]] == s[|s| - |r|..];
      r
  }

  /** The id the scraper derives from a link: the last non-empty path
      segment of the stripped link. */
  function JobId(href: string): (id: string)
    ensures '/' !in id
    ensures id == [] <==> AllSlashes(Strip(href))
  {
    var link := Strip(href);
    var path := RStripSlash(link);
    var id := LastSegment(path);
    assert link[|path|..] == link ==> path == [];
    assert path != [] ==> path[|path| - 1] == link[|path| - 1];
    id
  }

  /** A link ending in `/<segment>`, possibly followed by slashes, has that
      segment as its id. */
  lemma {:induction false} JobIdOfLink(base: string, segment: string, slashes: string)
    requires segment != [] && '/' !in segment && AllSlashes(slashes)
    requires var s := base + ['/'] + segment + slashes; !IsSpace(s[0]) && !IsSpace(s[|s| - 1])
    ensures JobId(base + ['/'] + segment + slashes) == segment
  {
    var s := base + ['/'] + segment + slashes;
    StripUnchanged(s);
    var path := base + ['/'] + segment;
    RStripSlashOf(path, slashes);
    LastSegmentOf(base, segment);
  }

  lemma {:induction false} RStripSlashOf(path: string, slashes: string)
    requires path != [] && path[|path| - 1] != '/' && AllSlashes(slashes)
    ensures RStripSlash(path + slashes) == path
  {
    if |slashes| > 0 {
      var shorter := slashes[..|slashes| - 1];
      assert (path + slashes)[..|path + slashes| - 1] == path + shorter;
      RStripSlashOf(path, shorter);
    } else {
      assert path + slashes == path;
    }
  }

  lemma {:induction false} LastSegmentOf(base: string, segment: string)
    requires '/' !in segment
    ensures LastSegment(base + ['/'] + segment) == segment
  {
    var s := base + ['/'] + segment;
    if |segment| == 0 {
      assert s[|s| - 1] == '/';
    } else {
      var init := segment[..|segment| - 1];
      assert s[..|s| - 1] == base + ['/'] + init;
      assert s[|s| - 1] == segment[|segment| - 1];
      LastSegmentOf(base, init);
      assert init + [segment[|segment| - 1]] == segment;
    }
  }

  /** The link of the scraper's unit test gives the id `123`. */
  lemma ExampleLinkId(href: string)
    requires href == "https://example.com/job/123"
    ensures JobId(href) == "123"
  {
    assert href == "https://example.com/job" + ['/'] + "123" + "";
    JobIdOfLink("https://example.com/job", "123", "");
  }

  /** A trailing slash does not change the id. */
  lemma SlugLinkId(href: string)
    requires href == "https://www.techinasia.com/jobs/abc-123/"
    ensures JobId(href) == "abc-123"
  {
    assert href == "https://www.techinasia.com/jobs" + ['/'] + "abc-123" + "/";
    JobIdOfLink("https://www.techinasia.com/jobs", "abc-123", "/");
  }

  /** The link both duplicate cards carry has its slug as id. */
  lemma DuplicateCardLinkId(href: string)
    requires href == "https://www.techinasia.com/jobs/abc-123"
    ensures JobId(href) == "abc-123"
  {
    assert href == "https://www.techinasia.com/jobs" + ['/'] + "abc-123" + "";
    JobIdOfLink("https://www.techinasia.com/jobs", "abc-123", "");
  }

  // ---------------------------------------------------------------------------
  // One card
  // ---------------------------------------------------------------------------

  /** The stripped text of an optional element, `""` when it is absent. */
  function OptionalText(e: Option<string>): (r: string)
    ensures e.None? ==> r == []
    ensures e.Some? ==> r == Strip(e.value)
  {
    if e.Some? then Strip(e.value) else []
  }

  lemma OptionalTextStripped(e: Option<string>)
    ensures Strip(OptionalText(e)) == OptionalText(e)
  {
    if e.Some? {
      StripIdempotent(e.value);
    } else {
      StripUnchanged([]);
    }
  }

  /** The attribute the image URL is read from: `src` unless it is absent
      or empty, then `data-src`, then nothing. */
  function ImageSource(a: Avatar): (src: string)
    ensures a.src.Some? && a.src.value != [] ==> src == a.src.value
    ensures (a.src.None? || a.src.value == []) && a.dataSrc.Some? ==> src == a.dataSrc.value
    ensures (a.src.None? || a.src.value == []) && a.dataSrc.None? ==> src == []
  {
    if a.src.Some? && a.src.value != [] then a.src.value
    else if a.dataSrc.Some? then a.dataSrc.value
    else []
  }

  /** The image URL: the stripped image source, `""` without an avatar. */
  function ImageUrl(avatar: Option<Avatar>): (r: string)
    ensures r == [] || (!IsSpace(r[0]) && !IsSpace(r[|r| - 1]))
    ensures avatar.None? ==> r == []
    ensures avatar.Some? ==> r == Strip(ImageSource(avatar.value))
  {
    if avatar.Some? then Strip(ImageSource(avatar.value)) else []
  }

  /** The metadata tags: the stripped `<li>` texts joined by commas. */
  function Metadata(items: Option<seq<string>>): (r: string)
    ensures items.None? ==> r == []
  {
    match items
    case None => []
    case Some(lis) => Join(StripAll(lis), ',')
  }

  function StripAll(xs: seq<string>): (r: seq<string>)
    ensures |r| == |xs|
    ensures forall i :: 0 <= i < |r| ==> r[i] == Strip(xs[i])
  {
    seq(|xs|, i requires 0 <= i < |xs| => Strip(xs[i]))
  }

  /** Splitting the metadata on commas gives back the stripped tags, as long
      as there is at least one tag and no tag holds a comma. */
  lemma MetadataSplits(lis: seq<string>)
    requires |lis| > 0
    requires forall i :: 0 <= i < |lis| ==> ',' !in Strip(lis[i])
    ensures Split(Metadata(Some(lis)), ',') == StripAll(lis)
  {
    SplitJoin(StripAll(lis), ',');
  }

  /** A card is complete when every look-up that aborts the extraction
      finds its element: the title anchor with an `href`, the company and
      the location. */
  predicate Complete(card: Card) {
    && card.title.Some? && card.title.value.href.Some?
    && card.company.Some? && card.location.Some?
  }

  /** The scraper's record for one card; `None` is the empty dict returned
      when a required element is missing. */
  function ExtractJob(card: Card): (r: Option<Job>)
    ensures r.Some? <==> Complete(card)
  {
    if !Complete(card) then None
    else
      var href := card.title.value.href.value;
      Some(Job(
        JobId(href),
        Strip(card.title.value.text),
        Strip(card.company.value),
        Strip(card.location.value),
        Strip(href),
        ImageUrl(card.avatar),
        OptionalText(card.compensation),
        OptionalText(card.published),
        Metadata(card.metadata)))
  }

  /** Every field of the record comes from its own element: the link is the
      stripped `href` and the id is derived from it; title, company and
      location are the stripped texts of their elements; the optional
      fields are read from theirs. */
  lemma ExtractJobFields(card: Card)
    requires Complete(card)
    ensures var j := ExtractJob(card).value;
      && j.link == Strip(card.title.value.href.value)
      && j.id == JobId(card.title.value.href.value)
      && j.title == Strip(card.title.value.text)
      && j.company == Strip(card.company.value)
      && j.location == Strip(card.location.value)
      && j.imageUrl == ImageUrl(card.avatar)
      && j.compensation == OptionalText(card.compensation)
      && j.publishedDate == OptionalText(card.published)
      && j.metadata == Metadata(card.metadata)
  {
  }

  /** The id of a record is recomputable from its stored link, the stripped
      `href`: it is the last non-empty path segment of the link, and it
      holds no slash. */
  lemma IdFromLink(card: Card)
    requires Complete(card)
    ensures var j := ExtractJob(card).value;
      && j.link == Strip(card.title.value.href.value)
      && j.id == LastSegment(RStripSlash(j.link))
      && '/' !in j.id
      && (j.id == [] <==> AllSlashes(j.link))
  {
  }

  /** The text fields read from required elements are stripped. */
  lemma RequiredFieldsStripped(card: Card)
    requires Complete(card)
    ensures var j := ExtractJob(card).value;
      && Strip(j.title) == j.title && Strip(j.company) == j.company && Strip(j.location) == j.location
      && Strip(j.link) == j.link
  {
    var j := ExtractJob(card).value;
    var href := card.title.value.href.value;
    assert j.title == Strip(card.title.value.text);
    assert j.company == Strip(card.company.value);
    assert j.location == Strip(card.location.value);
    assert j.link == Strip(href);
    StripIdempotent(card.title.value.text);
    StripIdempotent(card.company.value);
    StripIdempotent(card.location.value);
    StripIdempotent(href);
  }

  /** The text fields read from optional elements are stripped too. */
  lemma OptionalFieldsStripped(card: Card)
    requires Complete(card)
    ensures var j := ExtractJob(card).value;
      && Strip(j.imageUrl) == j.imageUrl
      && Strip(j.compensation) == j.compensation && Strip(j.publishedDate) == j.publishedDate
  {
    StripUnchanged(ImageUrl(card.avatar));
    OptionalTextStripped(card.compensation);
    OptionalTextStripped(card.published);
    var j := ExtractJob(card).value;
    assert j.imageUrl == ImageUrl(card.avatar);
    assert j.compensation == OptionalText(card.compensation);
    assert j.publishedDate == OptionalText(card.published);
  }

  /** The unit test's mock card: every look-up finds the same element, whose
      text is `Software Engineer` and whose every attribute is the link. */
  lemma MockCardExample(text: string, url: string)
    requires text == "Software Engineer" && url == "https://example.com/job/123"
    ensures var card := Card(Some(TitleLink(text, Some(url))), Some(text), Some(text),
                             Some(Avatar(Some(url), Some(url))), Some(text), Some(text), Some([]));
      var r := ExtractJob(card);
      && r.Some?
      && r.value.title == text
      && r.value.link == url
      && r.value.id == "123"
  {
    var card := Card(Some(TitleLink(text, Some(url))), Some(text), Some(text),
                     Some(Avatar(Some(url), Some(url))), Some(text), Some(text), Some([]));
    assert !IsSpace(text[0]) && !IsSpace(text[|text| - 1]);
    assert !IsSpace(url[0]) && !IsSpace(url[|url| - 1]);
    StripUnchanged(text);
    StripUnchanged(url);
    ExampleLinkId(url);
    assert Complete(card);
    assert ExtractJob(card).value.title == Strip(text);
    assert ExtractJob(card).value.link == Strip(url);
    assert ExtractJob(card).value.id == JobId(url);
  }

  /** A card whose every look-up fails gives no record. */
  lemma EmptyCardExample()
    ensures ExtractJob(Card(None, None, None, None, None, None, None)) == None
  {
  }

  // ---------------------------------------------------------------------------
  // Accumulating records first-seen-wins
  // ---------------------------------------------------------------------------

  /** The values of the `Some`s in `xs`, in order. */
  function Somes<T>(xs: seq<Option<T>>): (r: seq<T>)
    ensures |r| <= |xs|
  {
    if |xs| == 0 then []
    else Somes(xs[..|xs| - 1]) + (if xs[|xs| - 1].Some? then [xs[|xs| - 1].value] else [])
  }

  lemma {:induction false} SomesAppend<T>(a: seq<Option<T>>, b: seq<Option<T>>)
    ensures Somes(a + b) == Somes(a) + Somes(b)
  {
    if |b| == 0 {
      assert a + b == a;
    } else {
      var init := b[..|b| - 1];
      assert (a + b)[..|a + b| - 1] == a + init;
      assert (a + b)[|a + b| - 1] == b[|b| - 1];
      SomesAppend(a, init);
    }
  }

  lemma {:induction false} SomesMembers<T>(xs: seq<Option<T>>)
    ensures forall x :: x in Somes(xs) <==> Some(x) in xs
  {
    if |xs| > 0 {
      var init := xs[..|xs| - 1];
      SomesMembers(init);
      assert xs == init + [xs[|xs| - 1]];
    }
  }

  /** `f` applied to every element of `xs`. */
  function MapSeq<A, B>(xs: seq<A>, f: A -> B): (ys: seq<B>)
    ensures |ys| == |xs|
  {
    seq(|xs|, i requires 0 <= i < |xs| => f(xs[i]))
  }

  /** Element `i` of the mapped sequence is `f` of element `i`. */
  lemma MapSeqAt<A, B>(xs: seq<A>, f: A -> B)
    ensures forall i :: 0 <= i < |xs| ==> MapSeq(xs, f)[i] == f(xs[i])
  {
  }

  lemma MapSeqAppend<A, B>(a: seq<A>, b: seq<A>, f: A -> B)
    ensures MapSeq(a + b, f) == MapSeq(a, f) + MapSeq(b, f)
  {
    MapSeqAt(a + b, f);
    MapSeqAt(a, f);
    MapSeqAt(b, f);
    assert forall i :: 0 <= i < |a| ==> (a + b)[i] == a[i];
    assert forall i :: |a| <= i < |a + b| ==> (a + b)[i] == b[i - |a|];
  }

  /** The records of the cards that yield one, in card order. */
  function Extracted(cards: seq<Card>): seq<Job>
  {
    Somes(MapSeq(cards, ExtractJob))
  }

  /** The extracted records are exactly the records of the cards. */
  lemma ExtractedRecords(cards: seq<Card>)
    ensures forall j :: j in Extracted(cards) <==> exists i :: 0 <= i < |cards| && ExtractJob(cards[i]) == Some(j)
  {
    SomesMembers(MapSeq(cards, ExtractJob));
    MapSeqAt(cards, ExtractJob);
  }

  lemma ExtractedAppend(a: seq<Card>, b: seq<Card>)
    ensures Extracted(a + b) == Extracted(a) + Extracted(b)
  {
    MapSeqAppend(a, b, ExtractJob);
    SomesAppend(MapSeq(a, ExtractJob), MapSeq(b, ExtractJob));
  }

  /** One pass over a batch of cards: each card's record is appended when
      its id has not been seen, and its id is then marked seen. Also
      returns how many records the pass added. */
  method CollectCards(cards: seq<Card>, jobs: seq<Job>, seen: set<string>)
    returns (jobsNow: seq<Job>, seenNow: set<string>, added: nat)
    ensures jobsNow == jobs + Dedup.Unseen(Extracted(cards), IdOf, seen)
    ensures seenNow == seen + Dedup.Keys(Extracted(cards), IdOf)
    ensures added == |jobsNow| - |jobs|
  {
    var newJobs;
    newJobs, seenNow := Dedup.ScanUnseen(Extracted(cards), IdOf, seen);
    jobsNow := jobs + newJobs;
    added := |newJobs|;
  }

  /** The same value repeated keeps one copy. */
  lemma {:induction false} KeepFirstOfRepeated<X, K>(xs: seq<X>, x: X, key: X -> K)
    requires |xs| > 0 && forall i :: 0 <= i < |xs| ==> xs[i] == x
    ensures Dedup.KeepFirst(xs, key) == [x]
  {
    var init := xs[..|xs| - 1];
    if |init| == 0 {
      assert Dedup.Keys(init, key) == {};
    } else {
      KeepFirstOfRepeated(init, x, key);
      assert key(init[0]) in Dedup.Keys(init, key);
    }
  }

  lemma {:induction false} SomesOfRepeated<T>(xs: seq<Option<T>>, x: T)
    requires forall i :: 0 <= i < |xs| ==> xs[i] == Some(x)
    ensures |Somes(xs)| == |xs| && forall i :: 0 <= i < |xs| ==> Somes(xs)[i] == x
  {
    if |xs| > 0 {
      SomesOfRepeated(xs[..|xs| - 1], x);
    }
  }

  /** Mapping one repeated value to a record and keeping the first record
      per key keeps exactly one record. */
  lemma RepeatedRecordOnce<A, T, K>(xs: seq<A>, x: A, f: A -> Option<T>, key: T -> K)
    requires |xs| > 0 && forall i :: 0 <= i < |xs| ==> xs[i] == x
    requires f(x).Some?
    ensures Dedup.KeepFirst(Somes(MapSeq(xs, f)), key) == [f(x).value]
  {
    var rs := MapSeq(xs, f);
    MapSeqAt(xs, f);
    SomesOfRepeated(rs, f(x).value);
    KeepFirstOfRepeated(Somes(rs), f(x).value, key);
  }

  /** A card read several times yields its record once. */
  lemma RepeatedCardOnce(card: Card, cards: seq<Card>)
    requires Complete(card)
    requires |cards| > 0 && forall i :: 0 <= i < |cards| ==> cards[i] == card
    ensures Dedup.KeepFirst(Extracted(cards), IdOf) == [ExtractJob(card).value]
  {
    RepeatedRecordOnce(cards, card, ExtractJob, IdOf);
  }

  // ---------------------------------------------------------------------------
  // Scrolling until the page stops growing
  // ---------------------------------------------------------------------------

  /** What the browser reports after one scroll: the page height and the
      job cards on the page. */
  datatype Round = Round(height: int, cards: seq<Card>)

  /** Consecutive rounds without growth after which scrolling stops. */
  const MaxNoGrowthRounds: nat := 2

  /** The page states the loop compares: the height and card count before
      the first scroll (where the count is the number of distinct ids seen
      so far), then the height and card count after every round. */
  function States(height0: int, count0: nat, rounds: seq<Round>): (s: seq<(int, nat)>)
    ensures |s| == |rounds| + 1 && s[0] == (height0, count0)
    ensures forall k :: 0 <= k < |rounds| ==> s[k + 1] == (rounds[k].height, |rounds[k].cards|)
  {
    [(height0, count0)] + seq(|rounds|, k requires 0 <= k < |rounds| => (rounds[k].height, |rounds[k].cards|))
  }

  /** Scrolling stops after round `k` when rounds `k - 1` and `k` both saw
      the same height and card count as the state before them. */
  predicate StopsAt(s: seq<(int, nat)>, k: int) {
    2 <= k < |s| && s[k - 2] == s[k - 1] && s[k - 1] == s[k]
  }

  /** The loop's counters after `used` rounds of the states `s`: the
      previous state is the last one seen, `noGrowth` counts the trailing
      rounds without growth (at most two), and no earlier round stopped. */
  ghost predicate Counting(s: seq<(int, nat)>, used: nat, previous: (int, nat), noGrowth: nat) {
    && used < |s|
    && previous == s[used]
    && noGrowth <= MaxNoGrowthRounds
    && (noGrowth >= 1 <==> used >= 1 && s[used - 1] == s[used])
    && (noGrowth == MaxNoGrowthRounds <==> StopsAt(s, used))
    && forall k :: 0 <= k < used ==> !StopsAt(s, k)
  }

  /** The growth check after one round: no growth when both the height and
      the card count equal the previous ones, which bumps the counter;
      otherwise the new values become the previous ones and the counter
      restarts. */
  method NoteRound(ghost s: seq<(int, nat)>, ghost used: nat, previousHeight: int, previousCount: nat,
                   noGrowth: nat, newHeight: int, currentCount: nat)
    returns (height: int, count: nat, noGrowthNow: nat)
    requires Counting(s, used, (previousHeight, previousCount), noGrowth)
    requires noGrowth < MaxNoGrowthRounds
    requires used + 1 < |s| && s[used + 1] == (newHeight, currentCount)
    ensures Counting(s, used + 1, (height, count), noGrowthNow)
  {
    if newHeight == previousHeight && currentCount == previousCount {
      height, count, noGrowthNow := previousHeight, previousCount, noGrowth + 1;
    } else {
      height, count, noGrowthNow := newHeight, currentCount, 0;
    }
  }


  /** A page that never changes stops after the second round. */
  lemma StillPageStopsAtTwo(height0: int, count0: nat, rounds: seq<Round>)
    requires |rounds| >= 2
    requires forall k :: 0 <= k < |rounds| ==> rounds[k].height == height0 && |rounds[k].cards| == count0
    ensures StopsAt(States(height0, count0, rounds), 2)
    ensures forall k :: 0 <= k < 2 ==> !StopsAt(States(height0, count0, rounds), k)
  {
  }

  // ---------------------------------------------------------------------------
  // The whole scrape
  // ---------------------------------------------------------------------------

  /** The dict keys of a record, in insertion order: the columns of the
      scraped frame. */
  const JobColumns: seq<string> :=
    ["id", "title", "company", "location", "link", "image_url", "compensation", "published_date", "metadata"]

  /** Column `c` of `row` holds text. */
  predicate TextCell(row: Row, c: string) {
    c in row && row[c].Str?
  }

  /** One record as a frame row. */
  function JobRow(j: Job): (row: Row)
    ensures forall i :: 0 <= i < |JobColumns| ==> TextCell(row, JobColumns[i])
  {
    map["id" := Str(j.id), "title" := Str(j.title), "company" := Str(j.company),
        "location" := Str(j.location), "link" := Str(j.link), "image_url" := Str(j.imageUrl),
        "compensation" := Str(j.compensation), "published_date" := Str(j.publishedDate),
        "metadata" := Str(j.metadata)]
  }

  /** Reads a record back from a row, if the row holds the nine text cells. */
  function RowJob(row: Row): (r: Option<Job>)
    ensures r.Some? <==> forall i :: 0 <= i < |JobColumns| ==> TextCell(row, JobColumns[i])
  {
    if forall i :: 0 <= i < |JobColumns| ==> TextCell(row, JobColumns[i]) then
      assert TextCell(row, JobColumns[0]) && TextCell(row, JobColumns[1]) && TextCell(row, JobColumns[2]);
      assert TextCell(row, JobColumns[3]) && TextCell(row, JobColumns[4]) && TextCell(row, JobColumns[5]);
      assert TextCell(row, JobColumns[6]) && TextCell(row, JobColumns[7]) && TextCell(row, JobColumns[8]);
      Some(Job(row["id"].s, row["title"].s, row["company"].s, row["location"].s, row["link"].s,
               row["image_url"].s, row["compensation"].s, row["published_date"].s, row["metadata"].s))
    else None
  }

  /** A record survives the trip to a row and back. */
  lemma RowJobOfJobRow(j: Job)
    ensures RowJob(JobRow(j)) == Some(j)
  {
  }

  /** `pd.DataFrame(all_jobs)`, or the empty frame when there are none. */
  function JobsTable(jobs: seq<Job>): (t: Table)
    ensures |t.rows| == |jobs|
    ensures jobs == [] ==> t.cols == []
    ensures jobs != [] ==> t.cols == JobColumns
    ensures forall i :: 0 <= i < |jobs| ==> RowJob(t.rows[i]) == Some(jobs[i])
  {
    if |jobs| == 0 then Table([], [])
    else
      var rows := seq(|jobs|, i requires 0 <= i < |jobs| => JobRow(jobs[i]));
      RowsRoundTrip(jobs, rows);
      Table(JobColumns, rows)
  }

  lemma RowsRoundTrip(jobs: seq<Job>, rows: seq<Row>)
    requires |rows| == |jobs| && forall i :: 0 <= i < |jobs| ==> rows[i] == JobRow(jobs[i])
    ensures forall i :: 0 <= i < |jobs| ==> RowJob(rows[i]) == Some(jobs[i])
  {
    forall i | 0 <= i < |jobs| ensures RowJob(rows[i]) == Some(jobs[i]) {
      RowJobOfJobRow(jobs[i]);
    }
  }

  /** Distinct record ids give a frame whose `id` column has no duplicates,
      and the frame's ids are exactly the records' ids. */
  lemma JobsTableIds(jobs: seq<Job>)
    ensures Dedup.DistinctKeys(jobs, IdOf) ==> Dedup.DistinctKeys(JobsTable(jobs).rows, KeyOf("id"))
    ensures Dedup.Keys(JobsTable(jobs).rows, KeyOf("id")) == set k | k in Dedup.Keys(jobs, IdOf) :: Str(k)
  {
    var t := JobsTable(jobs);
    assert forall i :: 0 <= i < |jobs| ==> KeyOf("id")(t.rows[i]) == Str(jobs[i].id);
  }

  /** All the cards the scrape reads: the initial ones, then those of each
      round taken. */
  function CardsRead(initial: seq<Card>, rounds: seq<Round>): (cards: seq<Card>)
    ensures |cards| >= |initial| && cards[..|initial|] == initial
  {
    if |rounds| == 0 then initial
    else CardsRead(initial, rounds[..|rounds| - 1]) + rounds[|rounds| - 1].cards
  }

  /** Reading one more round adds its unseen records after the ones
      already kept, and its ids to the seen ones. */
  lemma CollectStep(initial: seq<Card>, rounds: seq<Round>, n: nat)
    requires n < |rounds|
    ensures var before := Extracted(CardsRead(initial, rounds[..n]));
      var now := Extracted(CardsRead(initial, rounds[..n + 1]));
      var batch := Extracted(rounds[n].cards);
      && Dedup.KeepFirst(now, IdOf) == Dedup.KeepFirst(before, IdOf) + Dedup.Unseen(batch, IdOf, Dedup.Keys(before, IdOf))
      && Dedup.Keys(now, IdOf) == Dedup.Keys(before, IdOf) + Dedup.Keys(batch, IdOf)
  {
    var read := CardsRead(initial, rounds[..n]);
    assert rounds[..n + 1][..n] == rounds[..n];
    assert CardsRead(initial, rounds[..n + 1]) == read + rounds[n].cards;
    ExtractedAppend(read, rounds[n].cards);
    Dedup.UnseenAppend(Extracted(read), Extracted(rounds[n].cards), IdOf, {});
    assert {} + Dedup.Keys(Extracted(read), IdOf) == Dedup.Keys(Extracted(read), IdOf);
    Dedup.KeysAppend(Extracted(read), Extracted(rounds[n].cards), IdOf);
  }

  /** The scroll loop's invariant survives one round of collection. */
  lemma CollectInvariant(initial: seq<Card>, rounds: seq<Round>, n: nat,
                         jobs: seq<Job>, seen: set<string>, jobsNow: seq<Job>, seenNow: set<string>)
    requires n < |rounds|
    requires jobs == Dedup.KeepFirst(Extracted(CardsRead(initial, rounds[..n])), IdOf)
    requires seen == Dedup.Keys(Extracted(CardsRead(initial, rounds[..n])), IdOf)
    requires jobsNow == jobs + Dedup.Unseen(Extracted(rounds[n].cards), IdOf, seen)
    requires seenNow == seen + Dedup.Keys(Extracted(rounds[n].cards), IdOf)
    ensures jobsNow == Dedup.KeepFirst(Extracted(CardsRead(initial, rounds[..n + 1])), IdOf)
    ensures seenNow == Dedup.Keys(Extracted(CardsRead(initial, rounds[..n + 1])), IdOf)
  {
    CollectStep(initial, rounds, n);
  }

  /** `scrape_all_jobs`: scrape the initial cards, then scroll, scraping
      every card on the page after each round, until the page stops
      growing or the reported rounds run out. The result holds the first
      record of every id read, in the order first read. */
  method ScrapeAllJobs(initial: seq<Card>, height0: int, rounds: seq<Round>)
    returns (df: Table, used: nat, stable: bool)
    ensures used <= |rounds|
    ensures var jobs := Dedup.KeepFirst(Extracted(CardsRead(initial, rounds[..used])), IdOf);
      && df == JobsTable(jobs)
      && Dedup.DistinctKeys(jobs, IdOf)
    ensures var s := States(height0, |Dedup.Keys(Extracted(initial), IdOf)|, rounds);
      && (stable ==> StopsAt(s, used))
      && (!stable ==> used == |rounds|)
      && forall k :: 0 <= k < used ==> !StopsAt(s, k)
  {
    var jobs, seen, added := CollectCards(initial, [], {});
    assert rounds[..0] == [];
    assert [] + Dedup.Unseen(Extracted(initial), IdOf, {}) == Dedup.KeepFirst(Extracted(initial), IdOf);
    jobs, seen, used, stable := ScrollAndCollect(initial, height0, rounds, jobs, seen);
    df := JobsTable(jobs);
  }

  /** The scroll loop of `scrape_all_jobs`, from the state the initial
      cards leave: every round's cards are collected before the growth
      check. */
  method ScrollAndCollect(initial: seq<Card>, height0: int, rounds: seq<Round>, jobs0: seq<Job>, seen0: set<string>)
    returns (jobs: seq<Job>, seen: set<string>, used: nat, stable: bool)
    requires jobs0 == Dedup.KeepFirst(Extracted(initial), IdOf)
    requires seen0 == Dedup.Keys(Extracted(initial), IdOf)
    ensures used <= |rounds|
    ensures jobs == Dedup.KeepFirst(Extracted(CardsRead(initial, rounds[..used])), IdOf)
    ensures var s := States(height0, |seen0|, rounds);
      && (stable ==> StopsAt(s, used))
      && (!stable ==> used == |rounds|)
      && forall k :: 0 <= k < used ==> !StopsAt(s, k)
  {
    jobs, seen := jobs0, seen0;
    ghost var s := States(height0, |seen0|, rounds);
    var previousHeight: int, previousCount: nat := height0, |seen0|;
    var noGrowth: nat := 0;
    used := 0;
    assert rounds[..0] == [];
    while noGrowth < MaxNoGrowthRounds && used < |rounds|
      invariant used <= |rounds|
      invariant jobs == Dedup.KeepFirst(Extracted(CardsRead(initial, rounds[..used])), IdOf)
      invariant seen == Dedup.Keys(Extracted(CardsRead(initial, rounds[..used])), IdOf)
      invariant Counting(s, used, (previousHeight, previousCount), noGrowth)
      decreases |rounds| - used
    {
      jobs, seen, previousHeight, previousCount, noGrowth :=
        ScrollRound(initial, rounds, s, used, jobs, seen, previousHeight, previousCount, noGrowth);
      used := used + 1;
    }
    stable := noGrowth >= MaxNoGrowthRounds;
  }

  /** One round of the scroll loop: collect the round's cards, then the
      growth check. */
  method ScrollRound(initial: seq<Card>, rounds: seq<Round>, ghost s: seq<(int, nat)>, used: nat,
                     jobs: seq<Job>, seen: set<string>, previousHeight: int, previousCount: nat, noGrowth: nat)
    returns (jobsNow: seq<Job>, seenNow: set<string>, height: int, count: nat, noGrowthNow: nat)
    requires used < |rounds| && noGrowth < MaxNoGrowthRounds
    requires used + 1 < |s| && s[used + 1] == (rounds[used].height, |rounds[used].cards|)
    requires Counting(s, used, (previousHeight, previousCount), noGrowth)
    requires jobs == Dedup.KeepFirst(Extracted(CardsRead(initial, rounds[..used])), IdOf)
    requires seen == Dedup.Keys(Extracted(CardsRead(initial, rounds[..used])), IdOf)
    ensures Counting(s, used + 1, (height, count), noGrowthNow)
    ensures jobsNow == Dedup.KeepFirst(Extracted(CardsRead(initial, rounds[..used + 1])), IdOf)
    ensures seenNow == Dedup.Keys(Extracted(CardsRead(initial, rounds[..used + 1])), IdOf)
  {
    var added;
    jobsNow, seenNow, added := CollectCards(rounds[used].cards, jobs, seen);
    CollectInvariant(initial, rounds, used, jobs, seen, jobsNow, seenNow);
    height, count, noGrowthNow :=
      NoteRound(s, used, previousHeight, previousCount, noGrowth, rounds[used].height, |rounds[used].cards|);
  }



  // ---------------------------------------------------------------------------
  // Upsert into the master table
  // ---------------------------------------------------------------------------

  /** The upsert in `main`: with no readable master table the scraped frame
      is kept; otherwise the two are concatenated, existing rows first, and
      duplicate ids dropped keeping the first. When neither frame has an
      `id` column the dedup raises, the error is caught, and the scraped
      frame is kept. */
  function Upsert(existing: Option<Table>, scraped: Table): (r: Table)
    ensures existing.None? ==> r == scraped
    ensures existing.Some? && "id" !in existing.value.cols && "id" !in scraped.cols ==> r == scraped
    ensures existing.Some? && ("id" in existing.value.cols || "id" in scraped.cols) ==>
      && |r.rows| <= |existing.value.rows| + |scraped.rows|
      && Dedup.DistinctKeys(r.rows, KeyOf("id"))
      && Dedup.Keys(r.rows, KeyOf("id")) == Dedup.Keys(existing.value.rows, KeyOf("id")) + Dedup.Keys(scraped.rows, KeyOf("id"))
  {
    match existing
    case None => scraped
    case Some(e) =>
      var combined := Concat(e, scraped);
      if "id" in combined.cols then
        Dedup.KeysAppend(e.rows, scraped.rows, KeyOf("id"));
        DropDuplicates(combined, "id")
      else scraped
  }

  /** The merged rows are the existing rows deduplicated, then the scraped
      rows whose id is not among the existing ones, first occurrence each:
      an existing row is never replaced by a scraped row with its id. */
  lemma UpsertExistingFirst(e: Table, scraped: Table)
    requires "id" in e.cols || "id" in scraped.cols
    ensures Upsert(Some(e), scraped).rows ==
      Dedup.KeepFirst(e.rows, KeyOf("id")) + Dedup.Unseen(scraped.rows, KeyOf("id"), Dedup.Keys(e.rows, KeyOf("id")))
  {
    Dedup.UnseenAppend(e.rows, scraped.rows, KeyOf("id"), {});
    assert {} + Dedup.Keys(e.rows, KeyOf("id")) == Dedup.Keys(e.rows, KeyOf("id"));
  }

  /** A master table with distinct ids is kept whole, as a prefix. */
  lemma UpsertKeepsExisting(e: Table, scraped: Table)
    requires "id" in e.cols
    requires Dedup.DistinctKeys(e.rows, KeyOf("id"))
    ensures Upsert(Some(e), scraped).rows ==
      e.rows + Dedup.Unseen(scraped.rows, KeyOf("id"), Dedup.Keys(e.rows, KeyOf("id")))
  {
    UpsertExistingFirst(e, scraped);
    Dedup.UnseenOfDistinct(e.rows, KeyOf("id"), {});
  }

  /** The number the upsert log reports as "new or updated rows" counts only
      the ids that were not in the master table: a scraped row whose id is
      already there adds nothing and updates nothing. */
  lemma UpsertAddsOnlyNewIds(e: Table, scraped: Table)
    requires "id" in e.cols
    requires Dedup.DistinctKeys(e.rows, KeyOf("id"))
    ensures |Upsert(Some(e), scraped).rows| - |e.rows| ==
      |Dedup.Keys(scraped.rows, KeyOf("id")) - Dedup.Keys(e.rows, KeyOf("id"))|
  {
    UpsertKeepsExisting(e, scraped);
    var newRows := Dedup.Unseen(scraped.rows, KeyOf("id"), Dedup.Keys(e.rows, KeyOf("id")));
    Dedup.DistinctKeysCount(newRows, KeyOf("id"));
  }

  /** A job scraped again with changed fields keeps its stored row. */
  lemma RescrapedJobKeepsStoredRow(cols: seq<string>, stored: Row, rescraped: Row)
    requires "id" in cols
    requires Get(stored, "id") == Get(rescraped, "id")
    ensures Upsert(Some(Table(cols, [stored])), Table(cols, [rescraped])).rows == [stored]
  {
    var key := KeyOf("id");
    UpsertKeepsExisting(Table(cols, [stored]), Table(cols, [rescraped]));
    assert [stored][0] == stored && [rescraped][0] == rescraped;
    assert key(stored) == Get(stored, "id") && key(rescraped) == Get(stored, "id");
    assert Dedup.Keys([stored], key) == {Get(stored, "id")};
    assert Dedup.Keys([rescraped], key) == {Get(stored, "id")};
  }

  /** The upsert its log message describes, where a re-scraped job updates
      its stored row: the scraped frame goes first, so keeping the first row
      of every id keeps the scraped one. */
  function UpsertLatest(existing: Option<Table>, scraped: Table): (r: Table)
    ensures existing.None? ==> r == scraped
    ensures existing.Some? && "id" !in existing.value.cols && "id" !in scraped.cols ==> r == scraped
    ensures existing.Some? && ("id" in existing.value.cols || "id" in scraped.cols) ==>
      && |r.rows| <= |existing.value.rows| + |scraped.rows|
      && Dedup.DistinctKeys(r.rows, KeyOf("id"))
      && Dedup.Keys(r.rows, KeyOf("id")) == Dedup.Keys(existing.value.rows, KeyOf("id")) + Dedup.Keys(scraped.rows, KeyOf("id"))
  {
    match existing
    case None => scraped
    case Some(e) =>
      var combined := Concat(scraped, e);
      if "id" in combined.cols then
        Dedup.KeysAppend(scraped.rows, e.rows, KeyOf("id"));
        DropDuplicates(combined, "id")
      else scraped
  }

  /** The merged rows are the scraped rows deduplicated, then the stored
      rows whose id was not scraped again. */
  lemma UpsertLatestScrapedFirst(e: Table, scraped: Table)
    requires "id" in e.cols || "id" in scraped.cols
    ensures UpsertLatest(Some(e), scraped).rows ==
      Dedup.KeepFirst(scraped.rows, KeyOf("id")) + Dedup.Unseen(e.rows, KeyOf("id"), Dedup.Keys(scraped.rows, KeyOf("id")))
  {
    Dedup.UnseenAppend(scraped.rows, e.rows, KeyOf("id"), {});
    assert {} + Dedup.Keys(scraped.rows, KeyOf("id")) == Dedup.Keys(scraped.rows, KeyOf("id"));
  }

  /** A job scraped again replaces its stored row. */
  lemma RescrapedJobReplacesStoredRow(cols: seq<string>, stored: Row, rescraped: Row)
    requires "id" in cols
    requires Get(stored, "id") == Get(rescraped, "id")
    ensures UpsertLatest(Some(Table(cols, [stored])), Table(cols, [rescraped])).rows == [rescraped]
  {
    var key := KeyOf("id");
    UpsertLatestScrapedFirst(Table(cols, [stored]), Table(cols, [rescraped]));
    Dedup.UnseenOfDistinct([rescraped], key, {});
    assert [stored][0] == stored && [rescraped][0] == rescraped;
    assert key(stored) == Get(stored, "id") && key(rescraped) == Get(stored, "id");
    assert Dedup.Keys([rescraped], key) == {Get(stored, "id")};
    assert Dedup.Unseen([stored], key, {Get(stored, "id")}) == [];
  }
}

=== FILE: text.dfy ===
/** Character classes and string operations of Python's `str`, restricted to
    ASCII: `str.isspace`, `str.strip`, `str.lower`, `str.join`, `str.split`,
    `int(...)` of a digit string and `str(...)` of an integer. */
module Text {

  /** The ASCII characters for which `str.isspace` holds; the regex class `\s`
      and `str.strip()` use the same set. */
  predicate IsSpace(c: char) {
    c == ' ' || ('\U{9}' <= c <= '\U{D}') || ('\U{1C}' <= c <= '\U{1F}')
  }

  /** The regex class `\d`, restricted to ASCII. */
  predicate IsDigit(c: char) {
    '0' <= c <= '9'
  }

  predicate IsUpper(c: char) {
    'A' <= c <= 'Z'
  }

  predicate AllSpace(s: string) {
    forall k :: 0 <= k < |s| ==> IsSpace(s[k])
  }

  predicate AllDigits(s: string) {
    forall k :: 0 <= k < |s| ==> IsDigit(s[k])
  }

  // ---------------------------------------------------------------------------
  // str.strip()
  // ---------------------------------------------------------------------------

  /** `str.lstrip()`: drops the leading whitespace. */
  function StripStart(s: string): (r: string)
    ensures |r| <= |s| && r == s[|s| - |r|..]
    ensures AllSpace(s[..|s| - |r|])
    ensures r == [] || !IsSpace(r[0])
  {
    if |s| > 0 && IsSpace(s[0]) then StripStart(s[1..]) else s
  }

  /** `str.rstrip()`: drops the trailing whitespace. */
  function StripEnd(s: string): (r: string)
    ensures |r| <= |s| && r == s[..|r|]
    ensures AllSpace(s[|r|..])
    ensures r == [] || !IsSpace(r[|r| - 1])
  {
    if |s| > 0 && IsSpace(s[|s| - 1]) then
      var p := s[..|s| - 1];
      var r := StripEnd(p);
      assert s[|r|..] == p[|r|..] + [s[|s| - 1]];
      r
    else s
  }

  /** `r` is `s` with some leading and some trailing whitespace cut off. */
  ghost predicate CutFrom(s: string, r: string) {
    exists i, j :: 0 <= i <= j <= |s| && r == s[i..j] && AllSpace(s[..i]) && AllSpace(s[j..])
  }

  /** `str.strip()`. */
  function Strip(s: string): (r: string)
    ensures |r| <= |s|
    ensures r == [] || (!IsSpace(r[0]) && !IsSpace(r[|r| - 1]))
  {
    StripEnd(StripStart(s))
  }

  /** What `strip` removes is whitespace, from both ends only. */
  lemma StripCuts(s: string)
    ensures CutFrom(s, Strip(s))
  {
    var a := StripStart(s);
    var r := StripEnd(a);
    assert s[|s| - |a|..][..|r|] == s[|s| - |a|..|s| - |a| + |r|];
    assert s[|s| - |a| + |r|..] == a[|r|..];
  }

  /** Stripping a string whose ends are not whitespace changes nothing. */
  lemma StripUnchanged(s: string)
    requires s == [] || (!IsSpace(s[0]) && !IsSpace(s[|s| - 1]))
    ensures Strip(s) == s
  {
    StripCuts(s);
    var r := Strip(s);
    var i, j :| 0 <= i <= j <= |s| && r == s[i..j] && AllSpace(s[..i]) && AllSpace(s[j..]);
  }

  /** Stripping an already stripped string changes nothing. */
  lemma StripIdempotent(s: string)
    ensures Strip(Strip(s)) == Strip(s)
  {
    StripUnchanged(Strip(s));
  }

  // ---------------------------------------------------------------------------
  // str.lower()
  // ---------------------------------------------------------------------------

  function LowerChar(c: char): (d: char)
    ensures !IsUpper(d)
    ensures IsSpace(d) <==> IsSpace(c)
    ensures !IsUpper(c) ==> d == c
    ensures IsUpper(c) ==> d as int == c as int + 32
  {
    if IsUpper(c) then (c as int + 32) as char else c
  }

  /** `str.lower()`: same length, every letter lowered, nothing else touched. */
  function Lower(s: string): (r: string)
    ensures |r| == |s|
    ensures forall k :: 0 <= k < |r| ==> !IsUpper(r[k])
    ensures forall k :: 0 <= k < |r| ==> (IsSpace(r[k]) <==> IsSpace(s[k]))
    ensures forall k :: 0 <= k < |r| && !IsUpper(s[k]) ==> r[k] == s[k]
    ensures forall k :: 0 <= k < |r| && IsUpper(s[k]) ==> r[k] as int == s[k] as int + 32
  {
    seq(|s|, k requires 0 <= k < |s| => LowerChar(s[k]))
  }

  /** A string without upper-case letters is its own lower-case form. */
  lemma LowerOfLower(s: string)
    requires forall k :: 0 <= k < |s| ==> !IsUpper(s[k])
    ensures Lower(s) == s
  {
  }

  // ---------------------------------------------------------------------------
  // int(...) and str(...) of decimal integers
  // ---------------------------------------------------------------------------

  function DigitValue(c: char): (v: nat)
    requires IsDigit(c)
    ensures v < 10
  {
    c as int - '0' as int
  }

  function DigitChar(v: nat): (c: char)
    requires v < 10
    ensures IsDigit(c) && DigitValue(c) == v
  {
    ('0' as int + v) as char
  }

  /** `int(s)` for a string of ASCII digits (leading zeros allowed). */
  function DigitsValue(s: string): (n: nat)
    requires AllDigits(s)
    ensures |s| > 0 && s[0] != '0' ==> n > 0
  {
    if |s| == 0 then 0
    else DigitsValue(s[..|s| - 1]) * 10 + DigitValue(s[|s| - 1])
  }

  /** `str(n)` for a non-negative integer: no leading zeros. */
  function NatText(n: nat): (s: string)
    ensures |s| > 0 && AllDigits(s)
    ensures s[0] == '0' <==> n == 0
  {
    if n < 10 then [DigitChar(n)] else NatText(n / 10) + [DigitChar(n % 10)]
  }

  /** `str(n)` for any integer. */
  function IntText(n: int): (s: string)
    ensures |s| > 0
    ensures n < 0 <==> s[0] == '-'
  {
    if n < 0 then "-" + NatText(-n) else NatText(n)
  }

  /** `int(str(n)) == n`. */
  lemma {:induction false} DigitsOfNatText(n: nat)
    ensures DigitsValue(NatText(n)) == n
  {
    if n >= 10 {
      DigitsOfNatText(n / 10);
      var s := NatText(n);
      assert s[..|s| - 1] == NatText(n / 10);
    }
  }

  // ---------------------------------------------------------------------------
  // str.replace(c, "")
  // ---------------------------------------------------------------------------

  /** `s.replace(c, "")`: every occurrence of `c` removed, order kept. */
  function RemoveChar(s: string, c: char): (r: string)
    ensures |r| <= |s|
    ensures c !in r
    ensures forall x :: x != c ==> (x in r <==> x in s)
    ensures r == [] <==> forall k :: 0 <= k < |s| ==> s[k] == c
  {
    if |s| == 0 then []
    else if s[0] == c then RemoveChar(s[1..], c)
    else [s[0]] + RemoveChar(s[1..], c)
  }

  /** Removing `c` from one character keeps it unless it is `c`. */
  lemma RemoveCharSingle(x: char, c: char)
    ensures RemoveChar([x], c) == if x == c then [] else [x]
  {
    assert [x][1..] == [];
  }

  /** Removal works piecewise: the kept characters of a concatenation are
      those of the first part, then those of the second, in order. With
      `RemoveCharSingle` this fixes the result of every string. */
  lemma {:induction false} RemoveCharAppend(a: string, b: string, c: char)
    ensures RemoveChar(a + b, c) == RemoveChar(a, c) + RemoveChar(b, c)
  {
    if |a| > 0 {
      assert (a + b)[0] == a[0];
      assert (a + b)[1..] == a[1..] + b;
      RemoveCharAppend(a[1..], b, c);
    } else {
      assert a + b == b;
    }
  }

  // ---------------------------------------------------------------------------
  // sep.join(xs) and s.split(sep)
  // ---------------------------------------------------------------------------

  /** `sep.join(xs)` for a one-character separator. */
  function Join(xs: seq<string>, sep: char): (s: string)
    ensures |xs| == 0 ==> s == []
    ensures (forall i :: 0 <= i < |xs| ==> sep !in xs[i]) ==> |s| + 1 >= |xs|
  {
    if |xs| == 0 then []
    else if |xs| == 1 then xs[0]
    else xs[0] + [sep] + Join(xs[1..], sep)
  }

  /** `s.split(sep)` for a one-character separator: the pieces between the
      separators, never an empty list. */
  function Split(s: string, sep: char): (xs: seq<string>)
    ensures |xs| > 0
    ensures forall i :: 0 <= i < |xs| ==> sep !in xs[i]
  {
    if |s| == 0 then [[]]
    else
      var rest := Split(s[1..], sep);
      if s[0] == sep then [[]] + rest
      else [[s[0]] + rest[0]] + rest[1..]
  }

  /** Splitting a join recovers the parts, provided none holds the separator
      and there is at least one part (`"".split(",") == [""]`). */
  lemma {:induction false} SplitJoin(xs: seq<string>, sep: char)
    requires |xs| > 0
    requires forall i :: 0 <= i < |xs| ==> sep !in xs[i]
    ensures Split(Join(xs, sep), sep) == xs
  {
    if |xs| == 1 {
      SplitNoSep(xs[0], sep);
    } else {
      SplitJoin(xs[1..], sep);
      SplitPrefix(xs[0], Join(xs[1..], sep), sep);
      assert Join(xs, sep) == xs[0] + ([sep] + Join(xs[1..], sep));
      assert [xs[0]] + xs[1..] == xs;
    }
  }

  lemma {:induction false} SplitNoSep(s: string, sep: char)
    requires sep !in s
    ensures Split(s, sep) == [s]
  {
    if |s| > 0 {
      SplitNoSep(s[1..], sep);
      assert [s[0]] + s[1..] == s;
    }
  }

  /** A separator-free head becomes the first piece. */
  lemma {:induction false} SplitPrefix(head: string, tail: string, sep: char)
    requires sep !in head
    ensures Split(head + ([sep] + tail), sep) == [head] + Split(tail, sep)
  {
    if |head| == 0 {
      assert head + ([sep] + tail) == [sep] + tail;
      assert ([sep] + tail)[1..] == tail;
    } else {
      SplitPrefix(head[1..], tail, sep);
      assert (head + ([sep] + tail))[1..] == head[1..] + ([sep] + tail);
      assert [head[0]] + head[1..] == head;
    }
  }

  /** Joining the pieces of a split gives back the string. */
  lemma {:induction false} JoinSplit(s: string, sep: char)
    ensures Join(Split(s, sep), sep) == s
  {
    if |s| > 0 {
      var rest := Split(s[1..], sep);
      JoinSplit(s[1..], sep);
      if s[0] == sep {
        assert Split(s, sep)[1..] == rest;
        assert [sep] + s[1..] == s;
      } else {
        var xs := Split(s, sep);
        assert xs[0] == [s[0]] + rest[0];
        assert xs[1..] == rest[1..];
        if |rest| == 1 {
          assert [s[0]] + s[1..] == s;
        } else {
          assert Join(rest, sep) == rest[0] + [sep] + Join(rest[1..], sep);
          assert [s[0]] + s[1..] == s;
        }
      }
    }
  }
}
